=== FILE: README.md ===
# Striform form builder — Dafny model

This project models the client-side core of the Striform form builder: the
form and question records, the App-level form list kept in browser storage,
the editor operations (title, questions, drag-and-drop reordering, question
settings, styling and colours), the respondent's viewer state machine
(answering, partial snapshots, final submission, webhook lookup, redirect),
the per-form integrations settings and the responses table.

Every React state update and every `localStorage` write is a pure function
from the old state to the new one. Storage is a map from keys (`forms`,
`responses_<formId>`, `integrations_<formId>`) to decoded values, so JSON
encoding is not part of the model. Timestamps and identifiers produced by
`Date.now()` and `new Date().toISOString()` are parameters.

Modules follow the source files:

- `Types` — `src/types.ts`: the twelve question types, questions, forms, responses.
- `Storage` — the storage keys and the read/append helpers the components share.
- `App` — `src/App.tsx`: create, update, delete a form, and recount its responses.
- `FormBuilder`, `QuestionBlock`, `QuestionTypePopup`, `CustomizationPanel` — the editor.
- `FormViewer` — `src/components/FormViewer.tsx`: the respondent's session.
- `IntegrationsPage`, `ResponsesPage` — the two per-form pages.
- `Sequences`, `Text`, `Optional` — array, string and option helpers that model
  JavaScript's `filter`, `map`, `splice`, `split`, `join`, `trim` and `includes`.

Behaviours of the code worth noting:

- `updateResponseCount` counts every stored response, partial snapshots included.
- Submitting does not move the question index past the end; it sets the
  submitted flag and leaves the index on the last question.
- The image sub-record is optional field by field. Setting the image URL on a
  question that has no image yields an image with a URL and no placement.
- A partial snapshot stores the answers as they were *before* the answer that
  triggered it, because the handler reads the previous render's state.
- Partial capture needs a Pro user outside preview, but no page of the app
  renders the viewer that way. The public form page passes no user, and
  the builder passes the user only to its preview. So the app as written
  never stores a partial snapshot. The model keeps the user as a free
  input to the viewer (see `FormViewer.NoCallerCapturesPartial`).
- With a webhook saved, submitting calls the completion callback, then waits
  for the webhook request, and only then stores the complete record and shows
  the thank-you page. The form stays on screen while the request is
  outstanding, so a second press submits again. The model keeps the
  outstanding requests in the session and lets each one settle as an event.

## Model

| member | source | states |
|---|---|---|
| Types.TwelveTags | src/types.ts:5 | There are exactly twelve question types, their tags are pairwise distinct, and reading a tag back yields the type it came from |
| Types.ParseTag | src/components/QuestionBlock.tsx:87-104 | The type picker accepts only the twelve tags, and any type it accepts writes back to the tag it was given |
| Storage.KeysDistinct | src/App.tsx:46-60 | The forms key, the responses key and the integrations key never collide, and the per-form keys of two different forms differ |
| Storage.AppendResponse | src/components/FormViewer.tsx:46-48 | Appending a response record leaves the form's stored list equal to the old list followed by the record, and touches no other key |
| App.Find | src/components/FormBuilder.tsx:30 | A lookup by id yields the first form in the list carrying that id, and yields nothing exactly when no form has that id |
| App.NewForm | src/App.tsx:37-43 | A new form has the given id, the title "Untitled Form", no questions, a zero response count, partial capture off and every optional setting absent |
| App.CreateNewForm | src/App.tsx:36-48 | Creating a form appends it to the list, persists the new list, and changes no other storage key |
| App.UpdateForm | src/App.tsx:50-54 | Every form with the updated form's id is replaced by it, every other form is kept in place, and the list is persisted |
| App.DeleteForm | src/App.tsx:56-61 | Deleting removes exactly the forms with that id, persists the rest, removes the form's responses and leaves its integrations |
| App.UpdateResponseCount | src/App.tsx:75-80 | The matching forms get the number of stored responses as their count and the other forms are kept; the new list is persisted under `forms` and every other storage key is unchanged |
| App.FindAfterCreate | src/App.tsx:36-48 | After creating a form, looking its id up finds the new form unless an earlier form already had that id; other ids find what they found before |
| App.FindAfterUpdate | src/App.tsx:50-54 | After an update, looking up the updated id finds the updated form, and other ids find what they found before |
| App.FindAfterDelete | src/App.tsx:56-61 | After a delete, the deleted id is not found, and other ids find what they found before |
| App.UpdateIdempotent | src/App.tsx:50-54 | Applying the same update twice gives the same state as applying it once |
| App.RecountAfterAppend | src/App.tsx:75-80 | Storing one more response for a form and recounting raises that form's count by exactly one and leaves the other forms' counts alone |
| App.CountIncludesPartials | src/App.tsx:75-80 | The recorded count includes partial snapshots: one stored partial response and no complete one gives a count of 1 |
| FormBuilder.HandleTitleChange | src/components/FormBuilder.tsx:43-47 | Only the title changes |
| FormBuilder.TitleLaws | src/components/FormBuilder.tsx:43-47 | Of two title changes the last one wins, and retyping the current title changes nothing |
| FormBuilder.AddQuestion | src/components/FormBuilder.tsx:49-53 | The question is appended at the end; earlier questions and all other form fields are unchanged |
| FormBuilder.UpdateQuestion | src/components/FormBuilder.tsx:55-62 | Questions with the given id are replaced, others kept in place, the count is unchanged, nothing else in the form changes |
| FormBuilder.RemoveQuestion | src/components/FormBuilder.tsx:64-69 | Exactly the questions with that id disappear, the others stay in order, nothing else changes |
| FormBuilder.OnDragEnd | src/components/FormBuilder.tsx:78-88 | A drop with no destination changes nothing; otherwise the questions are a permutation of the old ones with the dragged one at the destination |
| FormBuilder.DragBack | src/components/FormBuilder.tsx:81-83 | Dragging a question back from its destination to its source restores the original order |
| FormBuilder.DragKeepsOthersInOrder | src/components/FormBuilder.tsx:81-83 | Apart from the dragged question, the remaining questions keep their relative order |
| FormBuilder.RemoveUndoesAdd | src/components/FormBuilder.tsx:49-69 | Removing a freshly added question whose id is new restores the form |
| FormBuilder.UpdateLaws | src/components/FormBuilder.tsx:55-62 | Updating with the same question twice equals updating once, and updating an id that is absent changes nothing |
| QuestionBlock.HandleUpdate | src/components/QuestionBlock.tsx:22-24 | Each edit changes only its own field of the question (text, type, statement or cover image) |
| QuestionBlock.HandleUpdateLaws | src/components/QuestionBlock.tsx:22-24 | Of two edits of one field the last wins, edits of different fields commute, and switching the type away and back restores the question |
| QuestionBlock.RemoveImage | src/components/QuestionBlock.tsx:186 | Deleting the image clears it and leaves every other field |
| QuestionBlock.HandleImageUpdate | src/components/QuestionBlock.tsx:26-34 | Setting one image field stores that value, keeps the other two image fields, and changes nothing outside the image |
| QuestionBlock.ImageLaws | src/components/QuestionBlock.tsx:26-34 | Deleting the image undoes any image edit; of two edits of one image field the last wins, and edits of different image fields commute |
| QuestionBlock.FirstUrlLeavesPlacementUnset | src/components/QuestionBlock.tsx:26-34 | Setting a URL on a question without an image gives an image with that URL and no placement or position |
| QuestionBlock.HandleFileUploadConfigUpdate | src/components/QuestionBlock.tsx:36-44 | Setting one upload setting stores it, keeps the other two, and changes nothing outside the upload settings |
| QuestionBlock.EditOption | src/components/QuestionBlock.tsx:113-117 | Editing an option replaces exactly that option and keeps the number of options |
| QuestionBlock.AddOption | src/components/QuestionBlock.tsx:123 | Adding an option appends an empty option, starting from an empty list when there were none |
| QuestionBlock.OptionsStayNonEmpty | src/components/QuestionBlock.tsx:113-123 | Editing or adding options never leaves a question with an empty option list |
| QuestionBlock.ParseAcceptedTypes | src/components/QuestionBlock.tsx:157-158 | The accepted-types field yields one trimmed entry per comma-separated piece, in order, with no whitespace at either end |
| QuestionBlock.ShowAcceptedTypes | src/components/QuestionBlock.tsx:157 | The accepted-types field shows nothing exactly when no list is set, the list is empty, or it holds one empty type |
| QuestionBlock.ShowParseRoundTrip | src/components/QuestionBlock.tsx:157-158 | Showing a non-empty list of trimmed, comma-free types and reading the field back gives the same list |
| QuestionBlock.TypesFieldRoundTrip | src/components/QuestionBlock.tsx:157-158 | Leaving the accepted-types field as shown, for a non-empty list of trimmed, comma-free types, stores the same list and leaves the question unchanged |
| QuestionBlock.ClearedTypesField | src/components/QuestionBlock.tsx:158 | Clearing the field stores a list holding one empty type, not an empty list |
| QuestionBlock.MbToBytes | src/components/QuestionBlock.tsx:168 | The stored size is a whole number of mebibytes, and dividing it back gives the megabytes entered |
| QuestionBlock.DisplayMb | src/components/QuestionBlock.tsx:167 | The shown megabytes times 1024 * 1024 is the stored size (0 when none), and a whole number of mebibytes shows as that whole number |
| QuestionBlock.MbRoundTrip | src/components/QuestionBlock.tsx:167-168 | A whole number of megabytes entered in the size field is shown back as the same number |
| QuestionTypePopup.NewQuestion | src/components/QuestionTypePopup.tsx:30-45 | A new question has the chosen type, the entered text or "New Question", a statement exactly for statements, the options "Option 1", "Option 2", "Option 3" whatever its type, and exactly for uploads one file of at most 5 MB of types "application/pdf" and "image/*"; no image |
| QuestionTypePopup.NewUploadQuestionAsShown | src/components/QuestionTypePopup.tsx:37-41 | A new upload question shows 5 MB and "application/pdf, image/*", and reading that field back gives the default list |
| QuestionTypePopup.ChoiceTypesStartWithOptions | src/components/QuestionTypePopup.tsx:36 | Multiple choice, checkbox and single select questions start with a non-empty list of options |
| CustomizationPanel.StyleSelection | src/components/CustomizationPanel.tsx:31-48 | The text before and after the selection is kept, and the selection sits between the style's opening and closing markers |
| CustomizationPanel.Growth | src/components/CustomizationPanel.tsx:36-46 | Bold adds four characters, italic two and link seven |
| CustomizationPanel.StyleRoundTrip | src/components/CustomizationPanel.tsx:31-48 | Stripping the inserted markers gives back the original text |
| CustomizationPanel.EmptySelection | src/components/CustomizationPanel.tsx:31-48 | With an empty selection the markers are inserted around nothing at the cursor |
| CustomizationPanel.HandleTextStyle | src/components/CustomizationPanel.tsx:27-51 | Styling sets the description to the text with the selection wrapped in the style's markers, which strip back to the text, and changes no other form field |
| CustomizationPanel.Apply | src/components/CustomizationPanel.tsx:53-203 | Each settings edit sets exactly its own field: a colour and alignment (lines 53-59), the title (71), the description (92-95), the button text (178), the redirect URL (188) and partial capture (203) |
| CustomizationPanel.LastWriteWins | src/components/CustomizationPanel.tsx:53-59 | Two edits of the same field leave only the second one's effect |
| CustomizationPanel.DistinctFieldsCommute | src/components/CustomizationPanel.tsx:53-59 | Edits of different fields can be applied in either order |
| CustomizationPanel.TitleEditsAgree | src/components/CustomizationPanel.tsx:70-71 | The panel's title field makes the same change as the builder's title input |
| FormViewer.CurrentQuestion | src/components/FormViewer.tsx:26 | The current question is the question at the index when the index is in range, and nothing otherwise |
| FormViewer.PartialSnapshot | src/components/FormViewer.tsx:37-45 | A snapshot is a partial record of the form with the given answers and the current index as the last question answered |
| FormViewer.HandleAnswer | src/components/FormViewer.tsx:28-35 | An answer is stored under the current question's id; a partial snapshot is appended exactly when the form captures partials and this is not a preview |
| FormViewer.PartialNeedsProOptIn | src/components/FormViewer.tsx:28-35 | An answer stores one snapshot exactly when there is a current question, the form opted in, the respondent is a Pro user and this is not a preview (the condition `CapturesPartial` names); otherwise the stored list is untouched |
| FormViewer.NoCallerCapturesPartial | src/components/FormView.tsx:107 | With the props either caller passes (a preview, or no user), partial capture is off and an answer leaves storage untouched |
| FormViewer.CompleteRecord | src/components/FormViewer.tsx:88-95 | A submitted record is complete, carries the answers captured when Submit was pressed, and names the last question as the last one answered |
| FormViewer.WebhookUrl | src/components/FormViewer.tsx:64-66 | The webhook URL is exactly the form's saved `webhook` setting when that is present and non-empty, and nothing otherwise |
| FormViewer.FinishSubmit | src/components/FormViewer.tsx:87-104 | Finishing a submission appends one complete record of the captured answers, shows the thank-you page and redirects exactly when a redirect URL is set |
| FormViewer.HandleSubmit | src/components/FormViewer.tsx:59-86 | Outside preview with a completion handler, submitting calls it with the answers; with no webhook saved it finishes at once, with one it posts to the saved URL a payload of the form's id and title, those answers and the press's timestamp, and stores nothing yet; otherwise nothing changes |
| FormViewer.GoToNext | src/components/FormViewer.tsx:51-57 | Before the last question the index advances by one; on the last question it submits instead |
| FormViewer.LabelMatchesNext | src/components/FormViewer.tsx:357-361 | On a question of the form, the button label (`ButtonLabel`) reads "Next" exactly when pressing it advances, and on the last question it reads the button text or "Submit" |
| FormViewer.EmptyFormNextSubmits | src/components/FormViewer.tsx:51-57 | On a form with no questions the button reads "Next" and pressing it still calls the completion callback; with no webhook saved it stores a record naming -1 as the last question |
| FormViewer.ToggleAsWritten | src/components/FormViewer.tsx:159-164 | On an unanswered or text answer, ticking fails exactly when the option occurs in the text, where the code calls filter on a string; any list answer succeeds, ticking on a non-empty file answer appends the option after the files, and a successful tick on a non-empty text answer spreads the text into its characters before the option |
| FormViewer.EmptyOptionCrashes | src/components/FormViewer.tsx:159-164 | The failure happens for the unanswered question and the empty option |
| FormViewer.TextPriorIsSpread | src/components/FormViewer.tsx:159-164 | On the text answer "ab", ticking "b" fails and ticking "c" stores the list "a", "b", "c" |
| FormViewer.Toggle | src/components/FormViewer.tsx:183-188 | Ticking adds an absent option at the end; for a present one it is the order-preserving filter that removes every copy of it and keeps every other entry with its copies |
| FormViewer.ToggledAnswer | src/components/FormViewer.tsx:183-188 | Ticking always gives a list answer: with no list yet it is just the option, and on a list it is `Toggle` of that list, so an absent option is appended and a present one filtered out in order |
| FormViewer.ToggleTwice | src/components/FormViewer.tsx:183-188 | Ticking an option twice restores a list that held no copy of it |
| FormViewer.ToggleAgrees | src/components/FormViewer.tsx:159-164 | Wherever the code as written does not fail, it gives the same answer as the corrected toggle |
| FormViewer.Handle | src/components/FormViewer.tsx:28-105 | Before the thank-you page, an answer takes the `HandleAnswer` step, a tick takes it with the corrected toggle, and a press takes the `GoToNext` step, adding that step's completion call and pending request. A settling request stores its captured answers and shows the thank-you page, and settling an unknown request changes nothing. After submission other events change nothing, and earlier completions are never changed |
| FormViewer.RunStaysInRange | src/components/FormViewer.tsx:51-57 | From the start, the question index stays within the form's questions whatever the events |
| FormViewer.RunKeepsHistory | src/components/FormViewer.tsx:46-48 | Events only append to the stored responses; earlier records are never changed |
| FormViewer.PreviewIsInert | src/components/FormViewer.tsx:28-61 | In preview, with no request outstanding, no event writes to storage, starts a request or completes the form |
| FormViewer.RunKeepsSubmitted | src/components/FormViewer.tsx:99 | Once the thank-you page shows, it stays |
| FormViewer.HandleKeepsSettings | src/components/FormViewer.tsx:64 | No viewer event writes the saved integration settings |
| FormViewer.HandleWithoutWebhook | src/components/FormViewer.tsx:59-99 | With no webhook saved and no request outstanding, an event starts no request and a completion call comes with showing the thank-you page |
| FormViewer.CompletesAtMostOnce | src/components/FormViewer.tsx:59-99 | With no webhook saved, a session calls the completion callback at most once, and only by submitting |
| FormViewer.SnapshotLagsOneAnswer | src/components/FormViewer.tsx:30-41 | The snapshot taken by an answer holds the answers from before it, not the new one |
| FormViewer.SingleQuestionScenario | src/components/FormViewer.tsx:88-99 | Answering a one-question form and pressing the button stores one complete record with that answer and completes once |
| FormViewer.HandleInPreview | src/components/FormViewer.tsx:28-61 | In preview, with no request outstanding, one event changes neither storage nor the completions and starts no request |
| FormViewer.PressWithWebhook | src/components/FormViewer.tsx:59-67 | With a webhook saved, pressing Submit calls the completion callback and starts a request but keeps the form on screen and stores nothing |
| FormViewer.SettleOldest | src/components/FormViewer.tsx:87-99 | The oldest outstanding request settling stores its captured answers, shows the thank-you page and leaves the later requests waiting |
| FormViewer.WebhookDoubleSubmit | src/components/FormViewer.tsx:59-99 | With a webhook saved, two presses before the first request settles call the completion callback twice and store two complete records |
| IntegrationsPage.Load | src/components/IntegrationsPage.tsx:64-71 | Loading marks exactly the integrations with a saved URL as connected and restores their URLs |
| IntegrationsPage.Toggle | src/components/IntegrationsPage.tsx:75-81 | Toggling flips the target's connection, sets its URL when connecting and clears it when disconnecting; others are unchanged |
| IntegrationsPage.Persist | src/components/IntegrationsPage.tsx:84-93 | The saved settings hold entries only for ids of the listed integrations |
| IntegrationsPage.PersistSpec | src/components/IntegrationsPage.tsx:84-93 | With unique ids, an integration is saved exactly when it is connected with a non-empty URL, and it is saved with that URL |
| IntegrationsPage.ToggleIntegration | src/components/IntegrationsPage.tsx:74-96 | The toggled list is shown, the form's integrations key is always written with the saved map, no key is added besides it and no other key changes |
| IntegrationsPage.DisconnectForgets | src/components/IntegrationsPage.tsx:84-93 | After disconnecting, the integration has no saved URL |
| IntegrationsPage.SaveLoadRoundTrip | src/components/IntegrationsPage.tsx:64-95 | Reloading after a toggle gives back the toggled list whenever every connected integration has a non-empty URL |
| IntegrationsPage.EmptyUrlConnectIsLost | src/components/IntegrationsPage.tsx:74-93 | Connecting with an empty URL shows the integration connected but saves nothing for it, so a reload shows it disconnected |
| IntegrationsPage.HandleUrlChange | src/components/IntegrationsPage.tsx:98-106 | Typing a URL changes only that integration's URL |
| IntegrationsPage.TypedUrlIsSaved | src/components/IntegrationsPage.tsx:98-159 | Typing a non-empty URL into a disconnected integration and pressing Connect saves that URL, and a reload shows it connected with it |
| IntegrationsPage.CatalogueIdsUnique | src/components/IntegrationsPage.tsx:19-56 | The four catalogue entries have distinct ids, and each shows connected exactly when it has a URL |
| ResponsesPage.FilteredResponses | src/components/ResponsesPage.tsx:31-33 | With the switch on every response is listed; with it off exactly the complete ones, each no more often than stored |
| ResponsesPage.FilterKeepsOrder | src/components/ResponsesPage.tsx:31-33 | Filtering distributes over appending records, so the stored order is kept, and filtering twice is filtering once |
| ResponsesPage.PartialsNeedTheSwitch | src/components/ResponsesPage.tsx:31-52 | Unless the switch is offered (Pro user and a form capturing partials, `PartialToggleOffered`) and on, exactly the complete responses are listed; with it on, every stored response is |
| ResponsesPage.OnlyPartialsShowEmptyTable | src/components/ResponsesPage.tsx:58 | When every stored response is partial and the switch is off, the page shows an empty table, not "No responses yet.", because that message tests the unfiltered list |
| ResponsesPage.CellFor | src/components/ResponsesPage.tsx:95-103 | A cell shows a dash exactly when the column lies beyond the last question the response answered |
| ResponsesPage.Render | src/components/ResponsesPage.tsx:97-101 | A missing answer shows nothing, a text answer shows as is, a list of choices shows joined with ", ", and an answer holding files shows one "[object Object]" per file, joined with ", " and followed by any choices, since files come back from storage as empty objects |
| ResponsesPage.ChoiceCellSplitsBack | src/components/ResponsesPage.tsx:98-99 | A cell for a non-empty list of trimmed, comma-free options splits back at the commas into exactly that list |
| ResponsesPage.CompleteRowShowsEveryColumn | src/components/ResponsesPage.tsx:95-103 | A record made on submission shows a value in every column of the form |
| ResponsesPage.FirstSnapshotShowsBlank | src/components/ResponsesPage.tsx:97-101 | The snapshot taken by the first answer shows the first column blank rather than a dash |

## Left out

- The backend server, its database and the sign-up and login flow: the model stops at browser storage.
- Network calls: the webhook POST is not sent. `FormViewer.HandleSubmit` reports the URL and payload, and the request settling (success or failure alike) is an event of the session. The payload's `submittedAt` and the stored record's id and `submittedAt` are separate clock readings, so they are separate parameters.
- Navigation: the redirect URL is reported, not followed.
- JSON encoding of stored values: storage holds decoded values, and a malformed stored string is not modelled.
- Rendering: markdown display, the signature canvas, date and file pickers, the drag-and-drop library's animations, and the Dashboard list page.
- Uniqueness of `Date.now()` identifiers: ids and timestamps are parameters, and the lemmas that need a fresh id take it as a precondition.
- `FormView`'s completion callback (src/components/FormView.tsx:49-74). When its POST to the backend fails, it appends a second record for the same submission to `responses_<formId>`, but only if the answers are non-empty. That record has no `isPartial` and no `lastQuestionAnswered`, so `updateResponseCount` counts both records, and the table lists the extra one as complete with a dash in every column. It is left out with the backend it falls back from; the model's stored list holds only the viewer's own records.
- `FormViewer.Props.user` is a free input. App.tsx:102 hands the user to the public form page, but that page renders the viewer without it (src/components/FormView.tsx:107). The builder passes the user only to its preview (src/components/FormBuilder.tsx:160). So the partial-capture lemmas describe what the viewer does for a Pro user outside preview, which no page of the app as written reaches. The page wiring is left out with the pages themselves.
- The editor's save button, which only routes between the pieces modelled here.
- `QuestionBlock.MbRoundTrip`: the size field converts through floating point; only whole megabyte values are modelled and proved to round-trip.
- `QuestionBlock.HandleFileUploadConfigUpdate`: `parseInt` returning NaN on non-numeric input is not modelled; the numeric fields take integers.
- `Text.Trim` removes ASCII whitespace, the no-break space and the byte-order mark; other Unicode space characters are left out.
- `FormViewer.ToggledAnswer`: any prior answer that is not a list of strings counts as no selection. The code as written instead spreads a text answer into characters and appends after a file answer's files, as `FormViewer.ToggleAsWritten` shows.
- `FormViewer.Handle`: ticking uses the corrected `FormViewer.ToggledAnswer`, not `FormViewer.ToggleAsWritten`. So the session model does not crash on an empty option, does not spread a text answer into characters, and does not append to a file answer.
- `FormBuilder.OnDragEnd`: indices are required to be within the question list; the drag library never reports others, so `splice` clamping is not modelled.
- `CustomizationPanel.StyleSelection`: a reversed selection (start after end) is excluded; browsers report selections in order.
- `CustomizationPanel.StyleSelection`: the selection offsets count whole characters of the description, whereas the browser's `selectionStart`, `selectionEnd` and `substring` count UTF-16 code units; the two differ on text with characters outside the Basic Multilingual Plane, which the model does not distinguish.
- Numbers are unbounded integers; JavaScript's double-precision limits are not modelled.

## Findings

| source | as written | input that shows it | evidently intended | confidence | as-written member | corrected member |
|---|---|---|---|---|---|---|
| src/components/FormViewer.tsx:159-164 | An unanswered question's answer defaults to the empty string; the handler checks `includes(option)` on that string and, when true, calls `filter` on it, which strings do not have. The checkbox handler at lines 183-188 has the same shape | A checkbox or multiple choice question whose option list holds the empty string (which "Add Option" appends), answered for the first time by ticking that option | Ticking the option selects it, giving the answer `[""]` | medium, not executed | FormViewer.ToggleAsWritten, FormViewer.EmptyOptionCrashes | FormViewer.ToggledAnswer, FormViewer.ToggleTwice |

=== FILE: app.dfy ===
/** The application's forms list and its mirror in local storage: create a
    form, replace a form by id, delete a form by id, and refresh a form's
    response count from its stored responses. */
module App {
  import opened Optional
  import opened Types
  import opened Storage
  import Sequences

  /** The in-memory forms list together with local storage. */
  datatype AppState = AppState(forms: seq<Form>, store: Store)

  /** The stored `forms` key holds exactly the in-memory list. */
  predicate Persisted(s: AppState) {
    FormsKey in s.store && s.store[FormsKey] == FormList(s.forms)
  }

  /** Every key outside `keys` is present in `a` iff in `b`, with the same value. */
  predicate SameOutside(a: Store, b: Store, keys: set<string>) {
    && a.Keys - keys == b.Keys - keys
    && forall k :: k in a && k !in keys ==> k in b && b[k] == a[k]
  }

  /** The matcher `f => f.id === id`. */
  function HasId(id: string): Form -> bool {
    (f: Form) => f.id == id
  }

  /** The matcher `f => f.id !== id`. */
  function LacksId(id: string): Form -> bool {
    (f: Form) => f.id != id
  }

  /** `forms.find(f => f.id === id)`: the first form carrying the id. */
  function Find(forms: seq<Form>, id: string): (r: Option<Form>)
    ensures r.Some? ==> r.value in forms && r.value.id == id
    ensures r.None? <==> forall f :: f in forms ==> f.id != id
    ensures r.Some? ==> exists i :: 0 <= i < |forms| && forms[i] == r.value && forall j :: 0 <= j < i ==> forms[j].id != id
  {
    if |forms| == 0 then None
    else if forms[0].id == id then Some(forms[0])
    else Find(forms[1..], id)
  }

  /** The form `createNewForm` makes; `id` is the clock reading it is named after. */
  function NewForm(id: string): (f: Form)
    ensures f.id == id && f.title == "Untitled Form"
    ensures f.questions == [] && f.responseCount == 0
    ensures f.capturePartialSubmissions == Some(false)
    ensures f.description.None? && f.buttonText.None? && f.textAlign.None? && f.redirectUrl.None?
    ensures f.submitButtonColor.None? && f.titleColor.None?
    ensures f.questionColor.None? && f.descriptionColor.None?
  {
    Form(id, "Untitled Form", None, [], 0, None, None, None, None, None, None, None, Some(false))
  }

  /** `createNewForm`: append a fresh untitled form and persist the list. */
  function CreateNewForm(s: AppState, id: string): (r: (AppState, Form))
    ensures r.1 == NewForm(id)
    ensures r.0.forms == s.forms + [r.1]
    ensures Persisted(r.0)
    ensures SameOutside(s.store, r.0.store, {FormsKey})
  {
    var f := NewForm(id);
    var forms := s.forms + [f];
    (AppState(forms, s.store[FormsKey := FormList(forms)]), f)
  }

  /** `updateForm`: replace every form with the updated form's id and persist. */
  function UpdateForm(s: AppState, updated: Form): (r: AppState)
    ensures |r.forms| == |s.forms|
    ensures forall i :: 0 <= i < |s.forms| && s.forms[i].id == updated.id ==> r.forms[i] == updated
    ensures forall i :: 0 <= i < |s.forms| && s.forms[i].id != updated.id ==> r.forms[i] == s.forms[i]
    ensures Persisted(r)
    ensures SameOutside(s.store, r.store, {FormsKey})
  {
    var forms := Sequences.Replace(s.forms, HasId(updated.id), updated);
    AppState(forms, s.store[FormsKey := FormList(forms)])
  }

  /** `deleteForm`: drop every form with the id, persist the list and remove
      the form's stored responses. Its integration settings stay behind. */
  function DeleteForm(s: AppState, id: string): (r: AppState)
    ensures forall f :: f in r.forms <==> f in s.forms && f.id != id
    ensures r.forms == Sequences.Keep(s.forms, LacksId(id))
    ensures Persisted(r)
    ensures ResponsesKey(id) !in r.store
    ensures IntegrationsKey(id) in r.store <==> IntegrationsKey(id) in s.store
    ensures SameOutside(s.store, r.store, {FormsKey, ResponsesKey(id)})
  {
    KeysDistinct(id, id);
    var forms := Sequences.Keep(s.forms, LacksId(id));
    AppState(forms, (s.store - {ResponsesKey(id)})[FormsKey := FormList(forms)])
  }

  /** `updateResponseCount`: set the matching forms' count to the number of
      stored responses for the id, partial snapshots included. */
  function UpdateResponseCount(s: AppState, id: string): (r: AppState)
    ensures |r.forms| == |s.forms|
    ensures forall i :: 0 <= i < |s.forms| && s.forms[i].id == id ==>
      r.forms[i] == s.forms[i].(responseCount := |LoadResponses(s.store, id)|)
    ensures forall i :: 0 <= i < |s.forms| && s.forms[i].id != id ==> r.forms[i] == s.forms[i]
    ensures Persisted(r)
    ensures SameOutside(s.store, r.store, {FormsKey})
  {
    var n := |LoadResponses(s.store, id)|;
    var forms := RecountMatching(s.forms, id, n);
    AppState(forms, s.store[FormsKey := FormList(forms)])
  }

  /** Storing one more response for a form and recounting raises that
      form's count by exactly one and leaves every other form's count alone. */
  lemma RecountAfterAppend(s: AppState, id: string, record: Response, i: nat)
    requires i < |s.forms|
    ensures var before := UpdateResponseCount(s, id).forms[i].responseCount;
      var after := UpdateResponseCount(s.(store := AppendResponse(s.store, id, record)), id).forms[i].responseCount;
      && (s.forms[i].id == id ==> after == before + 1)
      && (s.forms[i].id != id ==> after == before == s.forms[i].responseCount)
  {
  }

  /** `forms.map(f => f.id === id ? { ...f, responseCount: n } : f)` */
  function RecountMatching(forms: seq<Form>, id: string, n: int): (r: seq<Form>)
    ensures |r| == |forms|
    ensures forall i :: 0 <= i < |forms| ==> r[i].id == forms[i].id
    ensures forall i :: 0 <= i < |forms| && forms[i].id == id ==> r[i] == forms[i].(responseCount := n)
    ensures forall i :: 0 <= i < |forms| && forms[i].id != id ==> r[i] == forms[i]
  {
    if |forms| == 0 then []
    else
      var head := if forms[0].id == id then forms[0].(responseCount := n) else forms[0];
      [head] + RecountMatching(forms[1..], id, n)
  }

  /** Looking a form up after creating one: the new form is found under its
      id unless an earlier form already carried that id (ids are clock
      readings and nothing checks them for uniqueness). */
  lemma {:induction false} FindAfterCreate(s: AppState, id: string, other: string)
    ensures Find(CreateNewForm(s, id).0.forms, id) ==
      (if Find(s.forms, id).Some? then Find(s.forms, id) else Some(NewForm(id)))
    ensures other != id ==> Find(CreateNewForm(s, id).0.forms, other) == Find(s.forms, other)
  {
    FindAppend(s.forms, NewForm(id), id);
    FindAppend(s.forms, NewForm(id), other);
  }

  lemma {:induction false} FindAppend(forms: seq<Form>, f: Form, id: string)
    ensures Find(forms + [f], id) ==
      (if Find(forms, id).Some? then Find(forms, id) else if f.id == id then Some(f) else None)
  {
    if |forms| > 0 {
      assert (forms + [f])[1..] == forms[1..] + [f];
      FindAppend(forms[1..], f, id);
    }
  }

  /** After an update the updated form is what a lookup by its id returns,
      provided the id was present; lookups by any other id are unaffected. */
  lemma {:induction false} FindAfterUpdate(forms: seq<Form>, updated: Form, other: string)
    ensures Find(Sequences.Replace(forms, HasId(updated.id), updated), updated.id) ==
      (if Find(forms, updated.id).Some? then Some(updated) else None)
    ensures other != updated.id ==>
      Find(Sequences.Replace(forms, HasId(updated.id), updated), other) == Find(forms, other)
  {
    if |forms| > 0 {
      FindAfterUpdate(forms[1..], updated, other);
    }
  }

  /** After a delete nothing is found under the id, its responses read back
      empty, and lookups by any other id are unaffected. */
  lemma {:induction false} FindAfterDelete(s: AppState, id: string, other: string)
    ensures Find(DeleteForm(s, id).forms, id).None?
    ensures LoadResponses(DeleteForm(s, id).store, id) == []
    ensures other != id ==> Find(DeleteForm(s, id).forms, other) == Find(s.forms, other)
  {
    FindKept(s.forms, id, other);
  }

  lemma {:induction false} FindKept(forms: seq<Form>, id: string, other: string)
    ensures other != id ==> Find(Sequences.Keep(forms, LacksId(id)), other) == Find(forms, other)
  {
    if |forms| > 0 && other != id {
      var rest := Sequences.Keep(forms[1..], LacksId(id));
      FindKept(forms[1..], id, other);
      if forms[0].id != id {
        assert Sequences.Keep(forms, LacksId(id)) == [forms[0]] + rest;
        assert ([forms[0]] + rest)[1..] == rest;
      } else {
        assert Sequences.Keep(forms, LacksId(id)) == rest;
      }
    }
  }

  /** Updating with the same form twice is the same as once. */
  lemma UpdateIdempotent(s: AppState, updated: Form)
    ensures UpdateForm(UpdateForm(s, updated), updated) == UpdateForm(s, updated)
  {
    var once := UpdateForm(s, updated);
    var twice := UpdateForm(once, updated);
    assert twice.forms == once.forms;
  }

  /** The refreshed count includes partial snapshots: one partial response
      and no complete one gives a count of 1. */
  lemma CountIncludesPartials(f: Form, partial: Response)
    requires partial.isPartial
    ensures var s := AppState([f], map[ResponsesKey(f.id) := ResponseList([partial])]);
      && UpdateResponseCount(s, f.id).forms[0].responseCount == 1
      && |Sequences.Keep([partial], (r: Response) => !r.isPartial)| == 0
  {
  }
}

=== FILE: customization_panel.dfy ===
/** The customisation panel: Markdown styling of the selected part of the
    form description, and the single-field setters for colours, alignment,
    button text, redirect URL and partial-submission capture. */
module CustomizationPanel {
  import opened Optional
  import opened Types
  import FormBuilder

  datatype TextStyle = Bold | Italic | Link

  /** The marker written before the selection. */
  function Opening(style: TextStyle): string {
    match style
    case Bold => "**"
    case Italic => "*"
    case Link => "["
  }

  /** The marker written after the selection. */
  function Closing(style: TextStyle): string {
    match style
    case Bold => "**"
    case Italic => "*"
    case Link => "](url)"
  }

  /** The description with the selection `[start, end)` wrapped in the
      style's markers. A textarea reports `start <= end <= length`. */
  function StyleSelection(text: string, start: nat, end: nat, style: TextStyle): (r: string)
    requires start <= end <= |text|
    ensures |r| == |text| + |Opening(style)| + |Closing(style)|
    ensures r[..start] == text[..start]
    ensures r[start..start + |Opening(style)|] == Opening(style)
    ensures r[start + |Opening(style)|..end + |Opening(style)|] == text[start..end]
    ensures r[end + |Opening(style)|..end + |Opening(style)| + |Closing(style)|] == Closing(style)
    ensures r[end + |Opening(style)| + |Closing(style)|..] == text[end..]
  {
    text[..start] + (Opening(style) + text[start..end] + Closing(style)) + text[end..]
  }

  /** Bold adds four characters, italic two, a link seven. */
  lemma Growth(text: string, start: nat, end: nat)
    requires start <= end <= |text|
    ensures |StyleSelection(text, start, end, Bold)| == |text| + 4
    ensures |StyleSelection(text, start, end, Italic)| == |text| + 2
    ensures |StyleSelection(text, start, end, Link)| == |text| + 7
  {
  }

  /** The styled text with the two markers cut out again. */
  function Unstyle(styled: string, start: nat, end: nat, style: TextStyle): string
    requires start <= end
    requires end + |Opening(style)| + |Closing(style)| <= |styled|
  {
    var open := |Opening(style)|;
    styled[..start] + styled[start + open..end + open] + styled[end + open + |Closing(style)|..]
  }

  /** Cutting the markers out of a styled description gives the original. */
  lemma StyleRoundTrip(text: string, start: nat, end: nat, style: TextStyle)
    requires start <= end <= |text|
    ensures Unstyle(StyleSelection(text, start, end, style), start, end, style) == text
  {
    assert text == text[..start] + text[start..end] + text[end..];
  }

  /** With nothing selected the marker pair is inserted at the cursor. */
  lemma EmptySelection(text: string, at: nat, style: TextStyle)
    requires at <= |text|
    ensures StyleSelection(text, at, at, style) == text[..at] + Opening(style) + Closing(style) + text[at..]
  {
    assert text[at..at] == "";
  }

  /** `handleTextStyle`: style the selection of the textarea's text and
      store the result as the form's description. */
  function HandleTextStyle(f: Form, text: string, start: nat, end: nat, style: TextStyle): (r: Form)
    requires start <= end <= |text|
    ensures r.description == Some(StyleSelection(text, start, end, style))
    ensures |r.description.value| == |text| + |Opening(style)| + |Closing(style)|
    ensures Unstyle(r.description.value, start, end, style) == text
    ensures r.(description := f.description) == f
  {
    StyleRoundTrip(text, start, end, style);
    f.(description := Some(StyleSelection(text, start, end, style)))
  }

  datatype ColorField = TitleColor | QuestionColor | DescriptionColor | SubmitButtonColor

  /** The panel's single-field edits of a form. */
  datatype Edit =
    | SetTitle(title: string)
    | SetDescription(description: string)
    | SetColor(field: ColorField, color: string)
    | SetTextAlign(align: Align)
    | SetButtonText(buttonText: string)
    | SetRedirectUrl(redirectUrl: string)
    | SetCapturePartial(capture: bool)

  /** The form field an edit writes. */
  datatype Target = TitleField | DescriptionField | ColorOf(ColorField) | AlignField | ButtonTextField | RedirectField | CaptureField

  function TargetOf(e: Edit): Target {
    match e
    case SetTitle(_) => TitleField
    case SetDescription(_) => DescriptionField
    case SetColor(c, _) => ColorOf(c)
    case SetTextAlign(_) => AlignField
    case SetButtonText(_) => ButtonTextField
    case SetRedirectUrl(_) => RedirectField
    case SetCapturePartial(_) => CaptureField
  }

  /** The colour a form has for a colour field. */
  function ColorValue(f: Form, c: ColorField): Option<string> {
    match c
    case TitleColor => f.titleColor
    case QuestionColor => f.questionColor
    case DescriptionColor => f.descriptionColor
    case SubmitButtonColor => f.submitButtonColor
  }

  /** `onUpdateForm({ ...form, [field]: value })` for the edit's field;
      `handleColorChange` and `handleTextAlign` are the colour and
      alignment cases. */
  function Apply(f: Form, e: Edit): (r: Form)
    ensures r.id == f.id && r.questions == f.questions && r.responseCount == f.responseCount
    ensures e.SetTitle? ==> r.title == e.title && r.(title := f.title) == f
    ensures e.SetDescription? ==> r.description == Some(e.description) && r.(description := f.description) == f
    ensures e.SetColor? ==> ColorValue(r, e.field) == Some(e.color)
    ensures e.SetColor? ==> forall c :: c != e.field ==> ColorValue(r, c) == ColorValue(f, c)
    ensures e.SetColor? ==> r.(titleColor := f.titleColor, questionColor := f.questionColor,
      descriptionColor := f.descriptionColor, submitButtonColor := f.submitButtonColor) == f
    ensures e.SetTextAlign? ==> r.textAlign == Some(e.align) && r.(textAlign := f.textAlign) == f
    ensures e.SetButtonText? ==> r.buttonText == Some(e.buttonText) && r.(buttonText := f.buttonText) == f
    ensures e.SetRedirectUrl? ==> r.redirectUrl == Some(e.redirectUrl) && r.(redirectUrl := f.redirectUrl) == f
    ensures e.SetCapturePartial? ==>
      r.capturePartialSubmissions == Some(e.capture)
      && r.(capturePartialSubmissions := f.capturePartialSubmissions) == f
  {
    match e
    case SetTitle(t) => f.(title := t)
    case SetDescription(d) => f.(description := Some(d))
    case SetColor(c, v) =>
      (match c
       case TitleColor => f.(titleColor := Some(v))
       case QuestionColor => f.(questionColor := Some(v))
       case DescriptionColor => f.(descriptionColor := Some(v))
       case SubmitButtonColor => f.(submitButtonColor := Some(v)))
    case SetTextAlign(a) => f.(textAlign := Some(a))
    case SetButtonText(b) => f.(buttonText := Some(b))
    case SetRedirectUrl(u) => f.(redirectUrl := Some(u))
    case SetCapturePartial(c) => f.(capturePartialSubmissions := Some(c))
  }

  /** Two edits of the same field: the later one wins. */
  lemma LastWriteWins(f: Form, e1: Edit, e2: Edit)
    requires TargetOf(e1) == TargetOf(e2)
    ensures Apply(Apply(f, e1), e2) == Apply(f, e2)
  {
  }

  /** Edits of different fields do not interfere: their order does not matter. */
  lemma DistinctFieldsCommute(f: Form, e1: Edit, e2: Edit)
    requires TargetOf(e1) != TargetOf(e2)
    ensures Apply(Apply(f, e1), e2) == Apply(Apply(f, e2), e1)
  {
  }

  /** The panel's title field and the builder's title input make the same change. */
  lemma TitleEditsAgree(f: Form, title: string)
    ensures Apply(f, SetTitle(title)) == FormBuilder.HandleTitleChange(f, title)
  {
  }
}

=== FILE: form_builder.dfy ===
/** The form builder's edits to the form being designed: retitle, append a
    question, replace a question by id, remove a question by id, and
    reorder questions by dragging one to a new position. */
module FormBuilder {
  import opened Optional
  import opened Types
  import Sequences

  /** `after` equals `before` except possibly in its question list. */
  predicate OnlyQuestionsDiffer(before: Form, after: Form) {
    after == before.(questions := after.questions)
  }

  /** The matcher `q => q.id === id`. */
  function HasId(id: string): Question -> bool {
    (q: Question) => q.id == id
  }

  /** The matcher `q => q.id !== id`. */
  function LacksId(id: string): Question -> bool {
    (q: Question) => q.id != id
  }

  /** `handleTitleChange` */
  function HandleTitleChange(f: Form, title: string): (r: Form)
    ensures r.title == title
    ensures r.(title := f.title) == f
  {
    f.(title := title)
  }

  /** Of two title changes the last wins, and retyping the current title
      changes nothing. */
  lemma TitleLaws(f: Form, a: string, b: string)
    ensures HandleTitleChange(HandleTitleChange(f, a), b) == HandleTitleChange(f, b)
    ensures HandleTitleChange(f, f.title) == f
  {
  }

  /** `addQuestion`: the new question goes to the end. */
  function AddQuestion(f: Form, q: Question): (r: Form)
    ensures |r.questions| == |f.questions| + 1
    ensures r.questions[..|f.questions|] == f.questions
    ensures r.questions[|f.questions|] == q
    ensures OnlyQuestionsDiffer(f, r)
  {
    f.(questions := f.questions + [q])
  }

  /** `updateQuestion`: every question with the updated question's id is
      replaced by it; the others keep their place and content. */
  function UpdateQuestion(f: Form, q: Question): (r: Form)
    ensures |r.questions| == |f.questions|
    ensures forall i :: 0 <= i < |f.questions| && f.questions[i].id == q.id ==> r.questions[i] == q
    ensures forall i :: 0 <= i < |f.questions| && f.questions[i].id != q.id ==> r.questions[i] == f.questions[i]
    ensures OnlyQuestionsDiffer(f, r)
  {
    f.(questions := Sequences.Replace(f.questions, HasId(q.id), q))
  }

  /** `removeQuestion`: keep exactly the questions with another id, in order. */
  function RemoveQuestion(f: Form, id: string): (r: Form)
    ensures forall q :: q in r.questions <==> q in f.questions && q.id != id
    ensures r.questions == Sequences.Keep(f.questions, LacksId(id))
    ensures OnlyQuestionsDiffer(f, r)
  {
    f.(questions := Sequences.Keep(f.questions, LacksId(id)))
  }

  /** `onDragEnd`: with no destination nothing changes; otherwise the
      question at `source` is moved so that it lands at `destination`. The
      drag library reports indices of the rendered list. */
  function OnDragEnd(f: Form, source: nat, destination: Option<nat>): (r: Form)
    requires source < |f.questions|
    requires destination.Some? ==> destination.value < |f.questions|
    ensures destination.None? ==> r == f
    ensures OnlyQuestionsDiffer(f, r)
    ensures |r.questions| == |f.questions|
    ensures multiset(r.questions) == multiset(f.questions)
    ensures destination.Some? ==> r.questions[destination.value] == f.questions[source]
  {
    if destination.None? then f
    else f.(questions := Sequences.Move(f.questions, source, destination.value))
  }

  /** Dragging a question from `i` to `j` and then from `j` back to `i`
      restores the original form. */
  lemma DragBack(f: Form, i: nat, j: nat)
    requires i < |f.questions| && j < |f.questions|
    ensures OnDragEnd(OnDragEnd(f, i, Some(j)), j, Some(i)) == f
  {
    Sequences.MoveInverse(f.questions, i, j);
  }

  /** A drag keeps every other question in its original relative order. */
  lemma DragKeepsOthersInOrder(f: Form, i: nat, j: nat)
    requires i < |f.questions| && j < |f.questions|
    ensures Sequences.RemoveAt(OnDragEnd(f, i, Some(j)).questions, j) == Sequences.RemoveAt(f.questions, i)
  {
    Sequences.MoveKeepsOthersInOrder(f.questions, i, j);
  }

  /** Removing a just-added question whose id no other question carries
      gives the original form back. */
  lemma {:induction false} RemoveUndoesAdd(f: Form, q: Question)
    requires forall p :: p in f.questions ==> p.id != q.id
    ensures RemoveQuestion(AddQuestion(f, q), q.id) == f
  {
    Sequences.KeepAppend(f.questions, [q], LacksId(q.id));
    Sequences.KeepAll(f.questions, LacksId(q.id));
    assert Sequences.Keep([q], LacksId(q.id)) == [];
  }

  /** Updating with a question whose id is absent changes nothing, and
      updating twice with the same question is updating once. */
  lemma UpdateLaws(f: Form, q: Question)
    ensures (forall p :: p in f.questions ==> p.id != q.id) ==> UpdateQuestion(f, q) == f
    ensures UpdateQuestion(UpdateQuestion(f, q), q) == UpdateQuestion(f, q)
  {
    if forall p :: p in f.questions ==> p.id != q.id {
      assert UpdateQuestion(f, q).questions == f.questions;
    }
    assert UpdateQuestion(UpdateQuestion(f, q), q).questions == UpdateQuestion(f, q).questions;
  }
}

=== FILE: form_viewer.dfy ===
/** The respondent's side of a form: one question at a time, an answer map
    that accumulates, optional partial snapshots, and on the last question
    a submission that calls the completion callback, may post a webhook,
    stores a complete response and may redirect. */
module FormViewer {
  import opened Optional
  import opened Types
  import opened Storage
  import Text
  import Sequences

  /** The component's own state. */
  datatype Viewer = Viewer(index: int, answers: Answers, submitted: bool)

  /** The state a viewer starts in. */
  const Start: Viewer := Viewer(0, map[], false)

  /** The component's props: `onComplete` is only known to be present or not. */
  datatype Props = Props(form: Form, preview: bool, hasOnComplete: bool, user: Option<User>)

  /** A clock reading: `Date.now().toString()` and `new Date().toISOString()`. */
  datatype Stamp = Stamp(id: string, at: string)

  /** The JSON body posted to a connected webhook. */
  datatype Webhook = Webhook(url: string, formId: string, formTitle: string, answers: Answers, submittedAt: string)

  /** What a handler does beyond the component state and local storage.
      `awaiting` holds the answers of a submission whose complete record
      is only written once the webhook request has settled. */
  datatype Effects = Effects(
    completed: Option<Answers>,
    webhook: Option<Webhook>,
    redirect: Option<string>,
    awaiting: Option<Answers>)

  const NoEffects: Effects := Effects(None, None, None, None)

  /** The outcome of one handler. */
  datatype Step = Step(viewer: Viewer, store: Store, effects: Effects)

  /** `form.questions[currentQuestionIndex]`, undefined off the end. */
  function CurrentQuestion(p: Props, v: Viewer): (r: Option<Question>)
    ensures r.Some? <==> 0 <= v.index < |p.form.questions|
    ensures r.Some? ==> r.value == p.form.questions[v.index]
  {
    if 0 <= v.index < |p.form.questions| then Some(p.form.questions[v.index]) else None
  }

  /** `form.capturePartialSubmissions && user?.isPro && !isPreview` */
  predicate CapturesPartial(p: Props) {
    p.form.capturePartialSubmissions == Some(true) && p.user.Some? && p.user.value.isPro && !p.preview
  }

  /** `savePartialSubmission`: the record reads the answers the handler was
      rendered with, so it does not yet hold the answer being given. */
  function PartialSnapshot(p: Props, v: Viewer, stamp: Stamp): (r: Response)
    ensures r.isPartial && r.lastQuestionAnswered == v.index
    ensures r.formId == p.form.id && r.answers == v.answers
  {
    Response(stamp.id, p.form.id, v.answers, stamp.at, true, v.index)
  }

  /** `handleAnswer`: record the answer for the current question and, when
      capture is on, append a partial snapshot; with no current question
      nothing happens. */
  function HandleAnswer(p: Props, v: Viewer, st: Store, answer: Answer, stamp: Stamp): (r: Step)
    ensures CurrentQuestion(p, v).None? ==> r == Step(v, st, NoEffects)
    ensures CurrentQuestion(p, v).Some? ==>
      var id := CurrentQuestion(p, v).value.id;
      && r.viewer.index == v.index && r.viewer.submitted == v.submitted
      && r.viewer.answers.Keys == v.answers.Keys + {id}
      && r.viewer.answers[id] == answer
      && (forall k :: k in v.answers && k != id ==> r.viewer.answers[k] == v.answers[k])
    ensures CurrentQuestion(p, v).Some? && CapturesPartial(p) ==>
      r.store == AppendResponse(st, p.form.id, PartialSnapshot(p, v, stamp))
    ensures !(CurrentQuestion(p, v).Some? && CapturesPartial(p)) ==> r.store == st
    ensures r.effects == NoEffects
  {
    match CurrentQuestion(p, v)
    case None => Step(v, st, NoEffects)
    case Some(q) =>
      var st' := if CapturesPartial(p) then AppendResponse(st, p.form.id, PartialSnapshot(p, v, stamp)) else st;
      Step(v.(answers := v.answers[q.id := answer]), st', NoEffects)
  }

  /** An answer stores a snapshot exactly when there is a current question,
      the form opted in to partial capture, the respondent is a Pro user
      and this is not a preview; otherwise the stored list is untouched. */
  lemma PartialNeedsProOptIn(p: Props, v: Viewer, st: Store, answer: Answer, stamp: Stamp)
    ensures var after := LoadResponses(HandleAnswer(p, v, st, answer, stamp).store, p.form.id);
      var before := LoadResponses(st, p.form.id);
      && (|after| == |before| + 1 <==>
            && 0 <= v.index < |p.form.questions|
            && p.form.capturePartialSubmissions == Some(true)
            && p.user.Some? && p.user.value.isPro
            && !p.preview)
      && (|after| != |before| + 1 ==> after == before)
  {
  }

  /** The app renders the viewer from two places: the builder's preview,
      which passes the user, and the public form page, which passes no
      user. Neither ever stores a partial snapshot. */
  lemma NoCallerCapturesPartial(p: Props, v: Viewer, st: Store, answer: Answer, stamp: Stamp)
    requires p.preview || p.user.None?
    ensures !CapturesPartial(p)
    ensures HandleAnswer(p, v, st, answer, stamp).store == st
  {
  }

  /** The stored record of a finished submission, holding the answers the
      submitting handler was rendered with. */
  function CompleteRecord(p: Props, answers: Answers, stamp: Stamp): (r: Response)
    ensures !r.isPartial && r.lastQuestionAnswered == |p.form.questions| - 1
    ensures r.formId == p.form.id && r.answers == answers
  {
    Response(stamp.id, p.form.id, answers, stamp.at, false, |p.form.questions| - 1)
  }

  /** The webhook URL saved for the form, when one is set. */
  function WebhookUrl(st: Store, formId: string): (r: Option<string>)
    ensures r.Some? <==> "webhook" in LoadSettings(st, formId) && LoadSettings(st, formId)["webhook"] != ""
    ensures r.Some? ==> r.value != "" && r.value == LoadSettings(st, formId)["webhook"]
  {
    var saved := LoadSettings(st, formId);
    if "webhook" in saved && saved["webhook"] != "" then Some(saved["webhook"]) else None
  }

  /** The second half of `handleSubmit`, run straight away when no webhook
      is saved and after the webhook request settles otherwise: append the
      complete record of the captured answers, show the thank-you page and
      redirect if a URL is set. */
  function FinishSubmit(p: Props, v: Viewer, st: Store, answers: Answers, stamp: Stamp): (r: Step)
    ensures r.viewer == v.(submitted := true)
    ensures r.store == AppendResponse(st, p.form.id, CompleteRecord(p, answers, stamp))
    ensures r.effects.completed.None? && r.effects.webhook.None? && r.effects.awaiting.None?
    ensures r.effects.redirect.Some? <==> Truthy(p.form.redirectUrl)
    ensures r.effects.redirect.Some? ==> r.effects.redirect == p.form.redirectUrl
  {
    var redirect := if Truthy(p.form.redirectUrl) then p.form.redirectUrl else None;
    Step(v.(submitted := true),
         AppendResponse(st, p.form.id, CompleteRecord(p, answers, stamp)),
         Effects(None, None, redirect, None))
  }

  /** `handleSubmit` up to its first `await`: outside preview and with a
      completion callback, call it; with no webhook saved, finish at once;
      with one, post to it and leave the rest waiting on the request.
      Otherwise nothing happens. Delivery of the webhook is not modelled. */
  function HandleSubmit(p: Props, v: Viewer, st: Store, stamp: Stamp): (r: Step)
    ensures p.preview || !p.hasOnComplete ==> r == Step(v, st, NoEffects)
    ensures !p.preview && p.hasOnComplete ==>
      && r.effects.completed == Some(v.answers)
      && (r.effects.webhook.Some? <==> WebhookUrl(st, p.form.id).Some?)
      && (r.effects.webhook.Some? ==>
            && r.effects.webhook.value.answers == v.answers
            && r.effects.webhook.value.formId == p.form.id
            && r.effects.webhook.value.formTitle == p.form.title
            && r.effects.webhook.value.url == WebhookUrl(st, p.form.id).value
            && r.effects.webhook.value.submittedAt == stamp.at)
    ensures !p.preview && p.hasOnComplete && WebhookUrl(st, p.form.id).None? ==>
      && r.viewer == v.(submitted := true)
      && r.store == AppendResponse(st, p.form.id, CompleteRecord(p, v.answers, stamp))
      && r.effects.awaiting.None?
      && (r.effects.redirect.Some? <==> Truthy(p.form.redirectUrl))
      && (r.effects.redirect.Some? ==> r.effects.redirect == p.form.redirectUrl)
    ensures !p.preview && p.hasOnComplete && WebhookUrl(st, p.form.id).Some? ==>
      && r.viewer == v && r.store == st
      && r.effects.awaiting == Some(v.answers)
      && r.effects.redirect.None?
  {
    if p.preview || !p.hasOnComplete then Step(v, st, NoEffects)
    else
      match WebhookUrl(st, p.form.id)
      case None =>
        var done := FinishSubmit(p, v, st, v.answers, stamp);
        done.(effects := done.effects.(completed := Some(v.answers)))
      case Some(url) =>
        var hook := Webhook(url, p.form.id, p.form.title, v.answers, stamp.at);
        Step(v, st, Effects(Some(v.answers), Some(hook), None, Some(v.answers)))
  }

  /** `goToNextQuestion`: advance by one before the last question; on the
      last one submit, except in preview where nothing happens. */
  function GoToNext(p: Props, v: Viewer, st: Store, stamp: Stamp): (r: Step)
    ensures v.index < |p.form.questions| - 1 ==> r == Step(v.(index := v.index + 1), st, NoEffects)
    ensures v.index >= |p.form.questions| - 1 && p.preview ==> r == Step(v, st, NoEffects)
    ensures v.index >= |p.form.questions| - 1 && !p.preview ==> r == HandleSubmit(p, v, st, stamp)
    ensures r.viewer.index == v.index + 1 <==> v.index < |p.form.questions| - 1
  {
    if v.index < |p.form.questions| - 1 then Step(v.(index := v.index + 1), st, NoEffects)
    else if !p.preview then HandleSubmit(p, v, st, stamp)
    else Step(v, st, NoEffects)
  }

  /** The text on the navigation button. */
  function ButtonLabel(f: Form, index: int): string {
    if index == |f.questions| - 1 then OrElse(f.buttonText, "Submit") else "Next"
  }

  /** On a question of a non-empty form the button reads "Next" exactly when
      pressing it advances; on the last question it carries the submit text. */
  lemma LabelMatchesNext(p: Props, v: Viewer, st: Store, stamp: Stamp)
    requires 0 <= v.index < |p.form.questions|
    ensures v.index == |p.form.questions| - 1 ==> ButtonLabel(p.form, v.index) == OrElse(p.form.buttonText, "Submit")
    ensures v.index != |p.form.questions| - 1 <==> GoToNext(p, v, st, stamp).viewer.index == v.index + 1
    ensures v.index != |p.form.questions| - 1 ==> ButtonLabel(p.form, v.index) == "Next"
  {
  }

  /** A form with no questions shows "Next", yet pressing it submits: the
      completion callback runs at once and, with no webhook saved, a record
      claiming question -1 was the last one answered is stored. */
  lemma EmptyFormNextSubmits(p: Props, st: Store, stamp: Stamp)
    requires |p.form.questions| == 0 && !p.preview && p.hasOnComplete
    ensures ButtonLabel(p.form, Start.index) == "Next"
    ensures GoToNext(p, Start, st, stamp).effects.completed == Some(map[])
    ensures WebhookUrl(st, p.form.id).None? ==>
      && GoToNext(p, Start, st, stamp).viewer.submitted
      && LoadResponses(GoToNext(p, Start, st, stamp).store, p.form.id)
           == LoadResponses(st, p.form.id) + [CompleteRecord(p, map[], stamp)]
    ensures CompleteRecord(p, map[], stamp).lastQuestionAnswered == -1
  {
  }

  /** Why a handler threw. */
  datatype Crash = FilterOnString

  /** The checkbox and multiple-choice handler as written. The prior answer
      is `answers[id] || ''`. On a string, `includes` is a substring test, a
      hit then calls `filter`, which strings do not have, and a miss spreads
      the string into characters before appending the option. A file list
      never contains a string, so the option is appended after the files. */
  function ToggleAsWritten(prior: Option<Answer>, option: string): (r: Result<Answer, Crash>)
    ensures r.Ok? ==> r.value.Choices? || r.value.Mixed?
    ensures (prior.None? || prior.value.Text?) ==>
      (r.Err? <==> Text.Contains(if prior.Some? then prior.value.text else "", option))
    ensures prior.Some? && !prior.value.Text? ==> r.Ok?
    ensures prior.Some? && prior.value.Files? && |prior.value.files| > 0 ==>
      r == Ok(Mixed(prior.value.files, [option]))
    ensures prior.Some? && prior.value.Text? && prior.value.text != "" && r.Ok? ==>
      r.value == Choices(Text.Chars(prior.value.text) + [option])
  {
    var shown := if prior.Some? then prior.value else Text("");
    match shown
    case Choices(xs) =>
      if option in xs then Ok(Choices(Sequences.Keep(xs, (a: string) => a != option)))
      else Ok(Choices(xs + [option]))
    case Text(s) =>
      if Text.Contains(s, option) then Err(FilterOnString)
      else Ok(Choices((if s == "" then [] else Text.Chars(s)) + [option]))
    case Files(fs) =>
      if |fs| == 0 then Ok(Choices([option])) else Ok(Mixed(fs, [option]))
    case Mixed(fs, xs) =>
      if option in xs then Ok(Mixed(fs, Sequences.Keep(xs, (a: string) => a != option)))
      else Ok(Mixed(fs, xs + [option]))
  }

  /** Ticking an empty-text choice (Add Option appends one) on an
      unanswered question throws instead of selecting it. */
  lemma EmptyOptionCrashes()
    ensures ToggleAsWritten(None, "") == Err(FilterOnString)
  {
    assert Text.IsPrefix("", "");
  }

  /** Ticking "b" when the prior answer is the text "ab" (a question whose
      type was switched after it was answered) throws, and ticking "c"
      stores the characters of the text followed by the option. */
  lemma TextPriorIsSpread()
    ensures ToggleAsWritten(Some(Text("ab")), "b") == Err(FilterOnString)
    ensures ToggleAsWritten(Some(Text("ab")), "c") == Ok(Choices(["a", "b", "c"]))
  {
    assert "ab"[1..] == "b" && "b"[1..] == "";
    assert Text.IsPrefix("b", "b");
    assert !Text.Contains("", "c");
    assert !Text.Contains("b", "c");
    assert "ab"[..1] == "a";
    assert !Text.Contains("ab", "c");
    assert ToggleAsWritten(Some(Text("ab")), "c") == Ok(Choices(Text.Chars("ab") + ["c"]));
    assert Text.Chars("ab") + ["c"] == ["a", "b", "c"];
    assert Text.Chars("ab") == ["a", "b"];
    assert Text.Chars("ab") == ["a"] + Text.Chars("b");
  }

  /** The intended toggle: remove every occurrence if present, else append. */
  function Toggle(xs: seq<string>, option: string): (r: seq<string>)
    ensures option in xs ==> option !in r && forall x :: x in r <==> x in xs && x != option
    ensures option in xs ==> r == Sequences.Keep(xs, (a: string) => a != option)
    ensures option !in xs ==> r == xs + [option]
  {
    if option in xs then Sequences.Keep(xs, (a: string) => a != option) else xs + [option]
  }

  /** The intended handler: an answer that is not yet a list of strings
      counts as none selected. */
  function ToggledAnswer(prior: Option<Answer>, option: string): (r: Answer)
    ensures r.Choices?
    ensures prior.Some? && prior.value.Choices? ==> r.items == Toggle(prior.value.items, option)
    ensures !(prior.Some? && prior.value.Choices?) ==> r.items == [option]
    ensures prior.Some? && prior.value.Choices? && option !in prior.value.items ==>
      r.items == prior.value.items + [option]
    ensures prior.Some? && prior.value.Choices? && option in prior.value.items ==>
      forall x :: x in r.items <==> x in prior.value.items && x != option
  {
    var xs := if prior.Some? && prior.value.Choices? then prior.value.items else [];
    Choices(Toggle(xs, option))
  }

  /** Toggling an absent option twice restores the list. */
  lemma {:induction false} ToggleTwice(xs: seq<string>, option: string)
    requires option !in xs
    ensures Toggle(Toggle(xs, option), option) == xs
  {
    Sequences.KeepAppend(xs, [option], (a: string) => a != option);
    Sequences.KeepAll(xs, (a: string) => a != option);
    assert Sequences.Keep([option], (a: string) => a != option) == [];
  }

  /** Wherever the handler as written does not throw on an unanswered or
      list-valued question, it agrees with the intended toggle; it throws
      exactly for an empty option on an unanswered question. */
  lemma ToggleAgrees(prior: Option<Answer>, option: string)
    requires prior.None? || prior.value.Choices? || prior.value == Text("")
    ensures ToggleAsWritten(prior, option).Err? <==> (option == "" && !(prior.Some? && prior.value.Choices?))
    ensures ToggleAsWritten(prior, option).Ok? ==> ToggleAsWritten(prior, option).value == ToggledAnswer(prior, option)
  {
    if !(prior.Some? && prior.value.Choices?) {
      if option == "" {
        assert Text.IsPrefix("", "");
      } else {
        assert !Text.IsPrefix(option, "");
      }
    }
  }

  /** Respondent actions: typing or picking an answer, ticking a choice,
      pressing the button, and the settling (success or failure alike) of
      the `k`-th webhook request still outstanding. */
  datatype Event =
    | Answered(answer: Answer, stamp: Stamp)
    | Ticked(option: string, stamp: Stamp)
    | Pressed(stamp: Stamp)
    | Settled(k: nat, stamp: Stamp)

  /** A respondent's session: the viewer, local storage, the answer maps
      handed to the completion callback so far, and the answers of the
      submissions still waiting on their webhook request. */
  datatype Session = Session(viewer: Viewer, store: Store, completions: seq<Answers>, waiting: seq<Answers>)

  /** The answer the current question holds, if any. */
  function PriorAnswer(p: Props, v: Viewer): Option<Answer> {
    match CurrentQuestion(p, v)
    case Some(q) => if q.id in v.answers then Some(v.answers[q.id]) else None
    case None => None
  }

  /** One event. The thank-you page has no controls, so once submitted only
      a settling request still acts. Ticking uses the intended toggle. */
  function Handle(p: Props, s: Session, e: Event): (r: Session)
    ensures |s.completions| <= |r.completions| <= |s.completions| + 1
    ensures r.completions[..|s.completions|] == s.completions
    ensures |r.completions| > |s.completions| ==> e.Pressed? && !s.viewer.submitted
    ensures e.Settled? && e.k < |s.waiting| ==>
      && r.viewer == s.viewer.(submitted := true)
      && r.store == AppendResponse(s.store, p.form.id, CompleteRecord(p, s.waiting[e.k], e.stamp))
      && r.waiting == Sequences.RemoveAt(s.waiting, e.k)
    ensures e.Settled? && e.k >= |s.waiting| ==> r == s
    ensures !e.Settled? && s.viewer.submitted ==> r == s
    ensures e.Answered? && !s.viewer.submitted ==>
      var step := HandleAnswer(p, s.viewer, s.store, e.answer, e.stamp);
      r == Session(step.viewer, step.store, s.completions, s.waiting)
    ensures e.Ticked? && !s.viewer.submitted ==>
      var step := HandleAnswer(p, s.viewer, s.store, ToggledAnswer(PriorAnswer(p, s.viewer), e.option), e.stamp);
      r == Session(step.viewer, step.store, s.completions, s.waiting)
    ensures e.Pressed? && !s.viewer.submitted ==>
      var step := GoToNext(p, s.viewer, s.store, e.stamp);
      r == Session(step.viewer, step.store,
                   s.completions + step.effects.completed.ToSeq(),
                   s.waiting + step.effects.awaiting.ToSeq())
  {
    match e
    case Settled(k, stamp) =>
      if k < |s.waiting| then
        var step := FinishSubmit(p, s.viewer, s.store, s.waiting[k], stamp);
        Session(step.viewer, step.store, s.completions, Sequences.RemoveAt(s.waiting, k))
      else s
    case _ =>
      if s.viewer.submitted then s
      else
        var step := match e
          case Answered(a, stamp) => HandleAnswer(p, s.viewer, s.store, a, stamp)
          case Ticked(option, stamp) =>
            HandleAnswer(p, s.viewer, s.store, ToggledAnswer(PriorAnswer(p, s.viewer), option), stamp)
          case Pressed(stamp) => GoToNext(p, s.viewer, s.store, stamp);
        Session(step.viewer, step.store,
                s.completions + step.effects.completed.ToSeq(),
                s.waiting + step.effects.awaiting.ToSeq())
  }

  /** A run of events, in order. */
  function Run(p: Props, s: Session, events: seq<Event>): Session
    decreases |events|
  {
    if |events| == 0 then s else Run(p, Handle(p, s, events[0]), events[1..])
  }

  /** The index is within `[0, max(0, n - 1)]`. */
  predicate InRange(p: Props, v: Viewer) {
    0 <= v.index && (v.index == 0 || v.index <= |p.form.questions| - 1)
  }

  /** Starting in range, the index stays in range whatever the respondent does. */
  lemma {:induction false} RunStaysInRange(p: Props, s: Session, events: seq<Event>)
    requires InRange(p, s.viewer)
    ensures InRange(p, Run(p, s, events).viewer)
    decreases |events|
  {
    if |events| > 0 {
      RunStaysInRange(p, Handle(p, s, events[0]), events[1..]);
    }
  }

  /** One event only appends to the stored responses. */
  lemma HandleAppendsOnly(p: Props, s: Session, e: Event)
    ensures var before := LoadResponses(s.store, p.form.id);
      var after := LoadResponses(Handle(p, s, e).store, p.form.id);
      |before| <= |after| && after[..|before|] == before
  {
  }

  /** Stored responses are only ever appended to: earlier entries, partial
      snapshots included, are never replaced. */
  lemma {:induction false} RunKeepsHistory(p: Props, s: Session, events: seq<Event>)
    ensures var before := LoadResponses(s.store, p.form.id);
      var after := LoadResponses(Run(p, s, events).store, p.form.id);
      |before| <= |after| && after[..|before|] == before
    decreases |events|
  {
    if |events| > 0 {
      var next := Handle(p, s, events[0]);
      HandleAppendsOnly(p, s, events[0]);
      RunKeepsHistory(p, next, events[1..]);
      var before := LoadResponses(s.store, p.form.id);
      var mid := LoadResponses(next.store, p.form.id);
      var after := LoadResponses(Run(p, next, events[1..]).store, p.form.id);
      assert after[..|before|] == after[..|mid|][..|before|];
    }
  }

  /** One event in preview with no request outstanding changes neither
      storage nor the completions and starts no request. */
  lemma HandleInPreview(p: Props, s: Session, e: Event)
    requires p.preview && s.waiting == []
    ensures Handle(p, s, e).store == s.store
    ensures Handle(p, s, e).completions == s.completions
    ensures Handle(p, s, e).waiting == []
  {
  }

  /** In preview, with no request outstanding, nothing is ever stored, no
      request is started and the completion callback is never called. */
  lemma {:induction false} PreviewIsInert(p: Props, s: Session, events: seq<Event>)
    requires p.preview && s.waiting == []
    ensures Run(p, s, events).store == s.store
    ensures Run(p, s, events).completions == s.completions
    ensures Run(p, s, events).waiting == []
    decreases |events|
  {
    if |events| > 0 {
      HandleInPreview(p, s, events[0]);
      PreviewIsInert(p, Handle(p, s, events[0]), events[1..]);
    }
  }

  /** Once submitted, a session stays submitted. */
  lemma {:induction false} RunKeepsSubmitted(p: Props, s: Session, events: seq<Event>)
    requires s.viewer.submitted
    ensures Run(p, s, events).viewer.submitted
    decreases |events|
  {
    if |events| > 0 {
      RunKeepsSubmitted(p, Handle(p, s, events[0]), events[1..]);
    }
  }

  /** No handler writes the saved integration settings. */
  lemma HandleKeepsSettings(p: Props, s: Session, e: Event, formId: string)
    ensures LoadSettings(Handle(p, s, e).store, formId) == LoadSettings(s.store, formId)
  {
    KeysDistinct(p.form.id, formId);
  }

  /** One event with no webhook saved and no request outstanding: none is
      started, the settings stay as they are, and a completion call comes
      with submitting. */
  lemma HandleWithoutWebhook(p: Props, s: Session, e: Event)
    requires WebhookUrl(s.store, p.form.id).None? && s.waiting == []
    ensures var r := Handle(p, s, e);
      && r.waiting == []
      && WebhookUrl(r.store, p.form.id).None?
      && (|r.completions| > |s.completions| ==> r.viewer.submitted)
  {
    HandleKeepsSettings(p, s, e, p.form.id);
  }

  /** With no webhook saved and no request outstanding, a session calls the
      completion callback at most once, and only by submitting. */
  lemma {:induction false} CompletesAtMostOnce(p: Props, s: Session, events: seq<Event>)
    requires WebhookUrl(s.store, p.form.id).None? && s.waiting == []
    ensures var r := Run(p, s, events);
      && |r.completions| <= |s.completions| + 1
      && (|r.completions| > |s.completions| ==> r.viewer.submitted && !s.viewer.submitted)
    decreases |events|
  {
    if |events| > 0 {
      var next := Handle(p, s, events[0]);
      HandleWithoutWebhook(p, s, events[0]);
      CompletesAtMostOnce(p, next, events[1..]);
      if |next.completions| > |s.completions| {
        RunKeepsSubmitted(p, next, events[1..]);
      }
    }
  }

  /** The first answer given with capture on is snapshotted without that
      answer: the record says question 0 was answered but holds no answer. */
  lemma SnapshotLagsOneAnswer(p: Props, st: Store, answer: Answer, stamp: Stamp)
    requires |p.form.questions| > 0 && CapturesPartial(p)
    ensures var r := HandleAnswer(p, Start, st, answer, stamp);
      && LoadResponses(r.store, p.form.id) == LoadResponses(st, p.form.id) + [PartialSnapshot(p, Start, stamp)]
      && PartialSnapshot(p, Start, stamp).lastQuestionAnswered == 0
      && p.form.questions[0].id !in PartialSnapshot(p, Start, stamp).answers
      && r.viewer.answers[p.form.questions[0].id] == answer
  {
  }

  /** One single-select question answered "A" and submitted by a
      non-preview respondent with no webhook saved: exactly one complete
      record holding that answer for question 0, and one completion call. */
  lemma SingleQuestionScenario(p: Props, st: Store, q: Question, s1: Stamp, s2: Stamp)
    requires p.form.questions == [q] && q.kind == SingleSelect
    requires !p.preview && p.hasOnComplete && !CapturesPartial(p)
    requires WebhookUrl(st, p.form.id).None?
    ensures var r := Run(p, Session(Start, st, [], []), [Answered(Text("A"), s1), Pressed(s2)]);
      && r.viewer.submitted
      && r.completions == [map[q.id := Text("A")]]
      && LoadResponses(r.store, p.form.id) == LoadResponses(st, p.form.id) +
           [Response(s2.id, p.form.id, map[q.id := Text("A")], s2.at, false, 0)]
  {
    var s0 := Session(Start, st, [], []);
    var a := Handle(p, s0, Answered(Text("A"), s1));
    assert a.viewer == Viewer(0, map[q.id := Text("A")], false);
    assert a.store == st;
    var b := Handle(p, a, Pressed(s2));
    var events := [Answered(Text("A"), s1), Pressed(s2)];
    assert events[1..] == [Pressed(s2)];
    assert Run(p, s0, events) == Run(p, a, [Pressed(s2)]);
    assert Run(p, a, [Pressed(s2)]) == Run(p, b, []);
  }

  /** Pressing the button on the last question with a webhook saved calls
      the completion callback and starts a request, but leaves the form
      showing and stores nothing yet. */
  lemma PressWithWebhook(p: Props, s: Session, stamp: Stamp)
    requires |p.form.questions| == 1 && s.viewer.index == 0 && !s.viewer.submitted
    requires !p.preview && p.hasOnComplete && WebhookUrl(s.store, p.form.id).Some?
    ensures Handle(p, s, Pressed(stamp))
      == Session(s.viewer, s.store, s.completions + [s.viewer.answers], s.waiting + [s.viewer.answers])
  {
  }

  /** The oldest outstanding request settling stores its captured answers
      and shows the thank-you page. */
  lemma SettleOldest(p: Props, s: Session, stamp: Stamp)
    requires |s.waiting| > 0
    ensures Handle(p, s, Settled(0, stamp)) == Session(
      s.viewer.(submitted := true),
      AppendResponse(s.store, p.form.id, CompleteRecord(p, s.waiting[0], stamp)),
      s.completions,
      s.waiting[1..])
  {
    assert Sequences.RemoveAt(s.waiting, 0) == s.waiting[1..];
  }

  /** With a webhook saved, pressing Submit twice before the first request
      settles calls the completion callback twice and, once both requests
      settle, stores two complete records. */
  lemma WebhookDoubleSubmit(p: Props, st: Store, s1: Stamp, s2: Stamp, s3: Stamp, s4: Stamp)
    requires |p.form.questions| == 1 && !p.preview && p.hasOnComplete
    requires WebhookUrl(st, p.form.id).Some?
    ensures var r := Run(p, Session(Start, st, [], []), [Pressed(s1), Pressed(s2), Settled(0, s3), Settled(0, s4)]);
      && r.viewer.submitted
      && r.completions == [map[], map[]]
      && r.waiting == []
      && LoadResponses(r.store, p.form.id) == LoadResponses(st, p.form.id) +
           [CompleteRecord(p, map[], s3), CompleteRecord(p, map[], s4)]
  {
    var s0 := Session(Start, st, [], []);
    var b := Session(Start, st, [map[], map[]], [map[], map[]]);
    TwoPresses(p, st, s1, s2);
    TwoSettles(p, b, s3, s4);
    AppendTwice(st, p.form.id, CompleteRecord(p, map[], s3), CompleteRecord(p, map[], s4));
    RunFour(p, s0, Pressed(s1), Pressed(s2), Settled(0, s3), Settled(0, s4));
  }

  /** Two presses on the one question with a webhook saved. */
  lemma TwoPresses(p: Props, st: Store, s1: Stamp, s2: Stamp)
    requires |p.form.questions| == 1 && !p.preview && p.hasOnComplete
    requires WebhookUrl(st, p.form.id).Some?
    ensures Handle(p, Handle(p, Session(Start, st, [], []), Pressed(s1)), Pressed(s2))
      == Session(Start, st, [map[], map[]], [map[], map[]])
  {
    var s0 := Session(Start, st, [], []);
    PressWithWebhook(p, s0, s1);
    PressWithWebhook(p, Handle(p, s0, Pressed(s1)), s2);
  }

  /** Both outstanding requests settling, oldest first. */
  lemma TwoSettles(p: Props, b: Session, s3: Stamp, s4: Stamp)
    requires |b.waiting| == 2
    ensures var d := Handle(p, Handle(p, b, Settled(0, s3)), Settled(0, s4));
      && d.viewer == b.viewer.(submitted := true)
      && d.completions == b.completions
      && d.waiting == []
      && d.store == AppendResponse(AppendResponse(b.store, p.form.id, CompleteRecord(p, b.waiting[0], s3)),
                                   p.form.id, CompleteRecord(p, b.waiting[1], s4))
  {
    var c := Session(
      b.viewer.(submitted := true),
      AppendResponse(b.store, p.form.id, CompleteRecord(p, b.waiting[0], s3)),
      b.completions,
      [b.waiting[1]]);
    SettleOldest(p, b, s3);
    SettleOldest(p, c, s4);
  }

  /** A run of four events applies them one after another. */
  lemma RunFour(p: Props, s: Session, e0: Event, e1: Event, e2: Event, e3: Event)
    ensures Run(p, s, [e0, e1, e2, e3]) == Handle(p, Handle(p, Handle(p, Handle(p, s, e0), e1), e2), e3)
  {
    var a := Handle(p, s, e0);
    var b := Handle(p, a, e1);
    var c := Handle(p, b, e2);
    RunCons(p, s, e0, [e1, e2, e3]);
    RunCons(p, a, e1, [e2, e3]);
    RunCons(p, b, e2, [e3]);
    RunCons(p, c, e3, []);
  }

  /** A run starting with `e` handles `e` and runs the rest. */
  lemma RunCons(p: Props, s: Session, e: Event, events: seq<Event>)
    ensures Run(p, s, [e] + events) == Run(p, Handle(p, s, e), events)
  {
    assert ([e] + events)[1..] == events;
  }
}

=== FILE: integrations_page.dfy ===
/** The integrations page: each integration is connected or not and holds
    a URL; the connected ones are saved per form as an id-to-URL map. */
module IntegrationsPage {
  import opened Storage

  /** An integration card; name, icon, instructions and colour are presentation only. */
  datatype Integration = Integration(id: string, connected: bool, url: string)

  /** The four integrations the page offers, all disconnected. */
  const Catalogue: seq<Integration> := [
    Integration("google-sheets", false, ""),
    Integration("slack", false, ""),
    Integration("zapier", false, ""),
    Integration("webhook", false, "")
  ]

  /** No two integrations share an id. */
  predicate UniqueIds(xs: seq<Integration>) {
    forall i, j :: 0 <= i < j < |xs| ==> xs[i].id != xs[j].id
  }

  /** An integration shows as connected exactly when it has a URL. */
  predicate Consistent(xs: seq<Integration>) {
    forall i :: 0 <= i < |xs| ==> (xs[i].connected <==> xs[i].url != "")
  }

  /** The saved URL for an id, `''` when absent. */
  function SavedUrl(saved: map<string, string>, id: string): string {
    if id in saved then saved[id] else ""
  }

  /** Loading the saved map: connected iff a non-empty URL is saved under
      the id, and the URL is that entry or `''`. */
  function Load(xs: seq<Integration>, saved: map<string, string>): (r: seq<Integration>)
    ensures |r| == |xs|
    ensures forall i :: 0 <= i < |xs| ==> r[i].id == xs[i].id
    ensures forall i :: 0 <= i < |xs| ==> r[i].connected == (xs[i].id in saved && saved[xs[i].id] != "")
    ensures forall i :: 0 <= i < |xs| ==> r[i].url == SavedUrl(saved, xs[i].id)
    ensures Consistent(r)
  {
    if |xs| == 0 then []
    else
      var saved0 := SavedUrl(saved, xs[0].id);
      [xs[0].(connected := saved0 != "", url := saved0)] + Load(xs[1..], saved)
  }

  /** The on-screen part of `toggleIntegration`: flip the target, clearing
      its URL on disconnect and taking the given URL on connect. */
  function Toggle(xs: seq<Integration>, target: string, url: string): (r: seq<Integration>)
    ensures |r| == |xs|
    ensures forall i :: 0 <= i < |xs| ==> r[i].id == xs[i].id
    ensures forall i :: 0 <= i < |xs| && xs[i].id == target ==>
      r[i].connected == !xs[i].connected && r[i].url == (if xs[i].connected then "" else url)
    ensures forall i :: 0 <= i < |xs| && xs[i].id != target ==> r[i] == xs[i]
  {
    if |xs| == 0 then []
    else
      var x := xs[0];
      var head := if x.id == target then x.(connected := !x.connected, url := if x.connected then "" else url) else x;
      [head] + Toggle(xs[1..], target, url)
  }

  /** One step of the `reduce` that builds the map to save, from the list
      as it was before the toggle. */
  function SaveStep(acc: map<string, string>, x: Integration, target: string, url: string): (r: map<string, string>)
    ensures Kept(x, target, url) ==> r == acc[x.id := KeptUrl(x, target, url)]
    ensures !Kept(x, target, url) ==> r == acc
  {
    if x.id == target then (if !x.connected && url != "" then acc[x.id := url] else acc)
    else if x.connected then acc[x.id := x.url]
    else acc
  }

  /** The ids of a list of integrations. */
  function Ids(xs: seq<Integration>): set<string> {
    set x | x in xs :: x.id
  }

  /** The `reduce` itself, folding from the left. */
  function Persist(xs: seq<Integration>, target: string, url: string): (r: map<string, string>)
    ensures r.Keys <= Ids(xs)
    decreases |xs|
  {
    if |xs| == 0 then map[]
    else SaveStep(Persist(xs[..|xs| - 1], target, url), xs[|xs| - 1], target, url)
  }

  /** Whether the saved map keeps an entry for an integration, and which URL. */
  predicate Kept(x: Integration, target: string, url: string) {
    if x.id == target then !x.connected && url != "" else x.connected
  }

  function KeptUrl(x: Integration, target: string, url: string): string {
    if x.id == target then url else x.url
  }

  /** With distinct ids, the saved map holds the target iff it was
      disconnected and a URL is given, and every other integration iff it
      was connected, with its current URL. */
  lemma {:induction false} PersistSpec(xs: seq<Integration>, target: string, url: string)
    requires UniqueIds(xs)
    ensures forall i :: 0 <= i < |xs| ==> (xs[i].id in Persist(xs, target, url) <==> Kept(xs[i], target, url))
    ensures forall i :: 0 <= i < |xs| && Kept(xs[i], target, url) ==>
      Persist(xs, target, url)[xs[i].id] == KeptUrl(xs[i], target, url)
  {
    forall i | 0 <= i < |xs|
      ensures xs[i].id in Persist(xs, target, url) <==> Kept(xs[i], target, url)
      ensures Kept(xs[i], target, url) ==> Persist(xs, target, url)[xs[i].id] == KeptUrl(xs[i], target, url)
    {
      PersistAt(xs, target, url, i);
    }
  }

  /** `PersistSpec` for the integration at one index, by induction on the
      length of the folded list. */
  lemma {:induction false} PersistAt(xs: seq<Integration>, target: string, url: string, i: nat)
    requires UniqueIds(xs) && i < |xs|
    ensures xs[i].id in Persist(xs, target, url) <==> Kept(xs[i], target, url)
    ensures Kept(xs[i], target, url) ==> Persist(xs, target, url)[xs[i].id] == KeptUrl(xs[i], target, url)
    decreases |xs|
  {
    var init := xs[..|xs| - 1];
    var last := xs[|xs| - 1];
    var m := Persist(init, target, url);
    assert Persist(xs, target, url) == SaveStep(m, last, target, url);
    if i == |xs| - 1 {
      forall x | x in init
        ensures x.id != last.id
      {
        var j :| 0 <= j < |init| && init[j] == x;
        assert xs[j] == x;
      }
      assert last.id !in Ids(init);
    } else {
      assert UniqueIds(init);
      assert init[i] == xs[i];
      PersistAt(init, target, url, i);
      assert xs[i].id != last.id;
    }
  }

  /** `toggleIntegration`: the new list, and local storage with the map
      saved under `integrations_${formId}`. */
  function ToggleIntegration(xs: seq<Integration>, st: Store, formId: string, target: string, url: string):
    (r: (seq<Integration>, Store))
    ensures r.0 == Toggle(xs, target, url)
    ensures LoadSettings(r.1, formId) == Persist(xs, target, url)
    ensures r.1.Keys == st.Keys + {IntegrationsKey(formId)}
    ensures r.1[IntegrationsKey(formId)] == Settings(Persist(xs, target, url))
    ensures forall k :: k in st && k != IntegrationsKey(formId) ==> k in r.1 && r.1[k] == st[k]
  {
    (Toggle(xs, target, url), st[IntegrationsKey(formId) := Settings(Persist(xs, target, url))])
  }

  /** Disconnecting removes the target from the saved map. */
  lemma DisconnectForgets(xs: seq<Integration>, i: nat, url: string)
    requires UniqueIds(xs) && i < |xs| && xs[i].connected
    ensures xs[i].id !in Persist(xs, xs[i].id, url)
  {
    PersistSpec(xs, xs[i].id, url);
  }

  /** After a toggle whose result shows connected exactly the integrations
      with a URL, loading the saved map reproduces the toggled list. */
  lemma SaveLoadRoundTrip(xs: seq<Integration>, target: string, url: string)
    requires UniqueIds(xs)
    requires Consistent(Toggle(xs, target, url))
    ensures Load(Toggle(xs, target, url), Persist(xs, target, url)) == Toggle(xs, target, url)
  {
    var t := Toggle(xs, target, url);
    var saved := Persist(xs, target, url);
    PersistSpec(xs, target, url);
    var loaded := Load(t, saved);
    forall i | 0 <= i < |t|
      ensures loaded[i] == t[i]
    {
      assert Kept(xs[i], target, url) <==> t[i].connected;
    }
  }

  /** Connecting with an empty URL shows the integration connected, but
      nothing is saved for it, so reloading shows it disconnected. */
  lemma EmptyUrlConnectIsLost(xs: seq<Integration>, i: nat)
    requires UniqueIds(xs) && i < |xs| && !xs[i].connected
    ensures Toggle(xs, xs[i].id, "")[i].connected
    ensures !Load(Toggle(xs, xs[i].id, ""), Persist(xs, xs[i].id, ""))[i].connected
  {
    PersistSpec(xs, xs[i].id, "");
  }

  /** `handleUrlChange`: only the target's URL changes. */
  function HandleUrlChange(xs: seq<Integration>, target: string, url: string): (r: seq<Integration>)
    ensures |r| == |xs|
    ensures forall i :: 0 <= i < |xs| && xs[i].id == target ==> r[i] == xs[i].(url := url)
    ensures forall i :: 0 <= i < |xs| && xs[i].id != target ==> r[i] == xs[i]
  {
    if |xs| == 0 then []
    else [if xs[0].id == target then xs[0].(url := url) else xs[0]] + HandleUrlChange(xs[1..], target, url)
  }

  /** Typing a non-empty URL into a disconnected integration and then
      pressing its Connect button saves that URL, and reloading the page
      shows it connected with that URL. */
  lemma TypedUrlIsSaved(xs: seq<Integration>, i: nat, url: string)
    requires UniqueIds(xs) && i < |xs| && !xs[i].connected && url != ""
    ensures var typed := HandleUrlChange(xs, xs[i].id, url);
      var saved := Persist(typed, xs[i].id, typed[i].url);
      && xs[i].id in saved && saved[xs[i].id] == url
      && Load(Toggle(typed, xs[i].id, typed[i].url), saved)[i] == Integration(xs[i].id, true, url)
  {
    var typed := HandleUrlChange(xs, xs[i].id, url);
    assert forall j :: 0 <= j < |xs| ==> typed[j].id == xs[j].id;
    assert UniqueIds(typed);
    PersistSpec(typed, xs[i].id, url);
  }

  /** The catalogue's ids are distinct, so the saved-map laws apply to the page. */
  lemma CatalogueIdsUnique()
    ensures UniqueIds(Catalogue) && Consistent(Catalogue)
  {
  }
}

=== FILE: optional.dfy ===
/** Absent-or-present values and success-or-error values, for the optional
    fields of the data model and for handlers that can throw. */
module Optional {

  /** A TypeScript optional field: `undefined` is `None`. */
  datatype Option<+T> = None | Some(value: T) {

    /** `x ?? default` */
    function GetOr(default: T): T {
      match this
      case Some(v) => v
      case None => default
    }

    /** The value as a list of zero or one elements. */
    function ToSeq(): (r: seq<T>)
      ensures |r| <= 1
      ensures Some? ==> r == [value]
      ensures None? ==> r == []
    {
      match this
      case Some(v) => [v]
      case None => []
    }
  }

  /** The outcome of an event handler: a new value, or the exception it throws. */
  datatype Result<+T, +E> = Ok(value: T) | Err(error: E)
}

=== FILE: question_block.dfy ===
/** Editing one question block: set one field, merge one field into the
    cover image or the upload limits, edit or add a choice, parse the
    accepted-file-types input, and convert the size limit between
    megabytes and bytes. */
module QuestionBlock {
  import opened Optional
  import opened Types
  import Text

  /** The fields `handleUpdate` is called with. */
  datatype Field =
    | QuestionText(text: string)
    | Kind(kind: QuestionType)
    | StatementText(statement: string)
    | CoverImage(image: Option<Image>)

  /** `handleUpdate(field, value)`: set one top-level field. */
  function HandleUpdate(q: Question, field: Field): (r: Question)
    ensures field.QuestionText? ==> r.question == field.text && r.(question := q.question) == q
    ensures field.Kind? ==> r.kind == field.kind && r.(kind := q.kind) == q
    ensures field.StatementText? ==> r.statement == Some(field.statement) && r.(statement := q.statement) == q
    ensures field.CoverImage? ==> r.image == field.image && r.(image := q.image) == q
  {
    match field
    case QuestionText(t) => q.(question := t)
    case Kind(k) => q.(kind := k)
    case StatementText(s) => q.(statement := Some(s))
    case CoverImage(img) => q.(image := img)
  }

  /** The image delete button: `handleUpdate('image', undefined)`. */
  function RemoveImage(q: Question): (r: Question)
    ensures r.image.None?
    ensures r.(image := q.image) == q
  {
    HandleUpdate(q, CoverImage(None))
  }

  /** Whether two updates set the same top-level field. */
  predicate SameField(a: Field, b: Field) {
    || (a.QuestionText? && b.QuestionText?)
    || (a.Kind? && b.Kind?)
    || (a.StatementText? && b.StatementText?)
    || (a.CoverImage? && b.CoverImage?)
  }

  /** Of two updates of one field the last wins, updates of different
      fields commute, and switching the type away and back restores the
      question. */
  lemma HandleUpdateLaws(q: Question, a: Field, b: Field, k: QuestionType)
    ensures SameField(a, b) ==> HandleUpdate(HandleUpdate(q, a), b) == HandleUpdate(q, b)
    ensures !SameField(a, b) ==> HandleUpdate(HandleUpdate(q, a), b) == HandleUpdate(HandleUpdate(q, b), a)
    ensures HandleUpdate(HandleUpdate(q, Kind(k)), Kind(q.kind)) == q
  {
  }

  /** The fields `handleImageUpdate` is called with. */
  datatype ImageField = ImageUrl(url: string) | ImagePlacement(placement: Placement) | ImagePosition(position: Side)

  /** `handleImageUpdate(field, value)`: `{ ...question.image, [field]: value }`,
      where spreading an absent image contributes no fields. */
  function HandleImageUpdate(q: Question, field: ImageField): (r: Question)
    ensures r.image.Some?
    ensures r.(image := q.image) == q
    ensures var prior := q.image.GetOr(NoImage);
      && r.image.value.url == (if field.ImageUrl? then Some(field.url) else prior.url)
      && r.image.value.placement == (if field.ImagePlacement? then Some(field.placement) else prior.placement)
      && r.image.value.position == (if field.ImagePosition? then Some(field.position) else prior.position)
  {
    var img := q.image.GetOr(NoImage);
    var merged := match field
      case ImageUrl(u) => img.(url := Some(u))
      case ImagePlacement(p) => img.(placement := Some(p))
      case ImagePosition(s) => img.(position := Some(s));
    q.(image := Some(merged))
  }

  /** Typing an image URL on a question with no image creates an image
      that has a URL but no placement, although the declared type requires one. */
  lemma FirstUrlLeavesPlacementUnset(q: Question, url: string)
    requires q.image.None?
    ensures HandleImageUpdate(q, ImageUrl(url)).image == Some(Image(Some(url), None, None))
  {
  }

  /** Whether two image updates set the same image field. */
  predicate SameImageField(a: ImageField, b: ImageField) {
    || (a.ImageUrl? && b.ImageUrl?)
    || (a.ImagePlacement? && b.ImagePlacement?)
    || (a.ImagePosition? && b.ImagePosition?)
  }

  /** Deleting the image undoes any image update; of two updates of one
      image field the last wins, and updates of different fields commute. */
  lemma ImageLaws(q: Question, a: ImageField, b: ImageField)
    ensures RemoveImage(HandleImageUpdate(q, a)) == RemoveImage(q)
    ensures SameImageField(a, b) ==> HandleImageUpdate(HandleImageUpdate(q, a), b) == HandleImageUpdate(q, b)
    ensures !SameImageField(a, b) ==>
      HandleImageUpdate(HandleImageUpdate(q, a), b) == HandleImageUpdate(HandleImageUpdate(q, b), a)
  {
  }

  /** The fields `handleFileUploadConfigUpdate` is called with. */
  datatype ConfigField = MaxFiles(maxFiles: int) | AcceptedFileTypes(types: seq<string>) | MaxFileSize(bytes: int)

  /** `handleFileUploadConfigUpdate(field, value)`: merge one limit into the
      upload configuration, keeping the others. */
  function HandleFileUploadConfigUpdate(q: Question, field: ConfigField): (r: Question)
    ensures r.fileUploadConfig.Some?
    ensures r.(fileUploadConfig := q.fileUploadConfig) == q
    ensures var prior := q.fileUploadConfig.GetOr(NoConfig);
      && r.fileUploadConfig.value.maxFiles == (if field.MaxFiles? then Some(field.maxFiles) else prior.maxFiles)
      && r.fileUploadConfig.value.acceptedFileTypes == (if field.AcceptedFileTypes? then Some(field.types) else prior.acceptedFileTypes)
      && r.fileUploadConfig.value.maxFileSize == (if field.MaxFileSize? then Some(field.bytes) else prior.maxFileSize)
  {
    var cfg := q.fileUploadConfig.GetOr(NoConfig);
    var merged := match field
      case MaxFiles(n) => cfg.(maxFiles := Some(n))
      case AcceptedFileTypes(ts) => cfg.(acceptedFileTypes := Some(ts))
      case MaxFileSize(b) => cfg.(maxFileSize := Some(b));
    q.(fileUploadConfig := Some(merged))
  }

  /** Editing the text of choice `k`: only that entry changes. */
  function EditOption(q: Question, k: nat, text: string): (r: Question)
    requires q.options.Some? && k < |q.options.value|
    ensures r.options.Some? && |r.options.value| == |q.options.value|
    ensures r.options.value[k] == text
    ensures forall i :: 0 <= i < |q.options.value| && i != k ==> r.options.value[i] == q.options.value[i]
    ensures r.(options := q.options) == q
  {
    q.(options := Some(q.options.value[k := text]))
  }

  /** The Add Option button: append an empty choice. */
  function AddOption(q: Question): (r: Question)
    ensures r.options.Some?
    ensures |r.options.value| == |q.options.GetOr([])| + 1
    ensures r.options.value[..|r.options.value| - 1] == q.options.GetOr([])
    ensures r.options.value[|r.options.value| - 1] == ""
    ensures r.(options := q.options) == q
  {
    q.(options := Some(q.options.GetOr([]) + [""]))
  }

  /** Choices survive any sequence of edits and additions: once present and
      non-empty, the list stays non-empty. */
  lemma OptionsStayNonEmpty(q: Question, k: nat, text: string)
    requires q.options.Some? && k < |q.options.value|
    ensures |EditOption(q, k, text).options.value| > 0
    ensures |AddOption(q).options.value| > 0
    ensures |AddOption(EditOption(q, k, text)).options.value| == |q.options.value| + 1
  {
  }

  /** `value.split(',').map(type => type.trim())` */
  function ParseAcceptedTypes(input: string): (r: seq<string>)
    ensures |r| == Text.CountChar(input, ',') + 1
    ensures forall i :: 0 <= i < |r| ==> r[i] == Text.Trim(Text.Split(input, ',')[i])
    ensures forall i :: 0 <= i < |r| ==> Text.IsTrimmed(r[i])
  {
    var parts := Text.Split(input, ',');
    seq(|parts|, i requires 0 <= i < |parts| => Text.Trim(parts[i]))
  }

  /** What the accepted-types input shows: `acceptedFileTypes?.join(', ') || ''`. */
  function ShowAcceptedTypes(q: Question): (r: string)
    ensures r == "" <==>
      || q.fileUploadConfig.None?
      || q.fileUploadConfig.value.acceptedFileTypes.None?
      || q.fileUploadConfig.value.acceptedFileTypes.value in {[], [""]}
  {
    if q.fileUploadConfig.Some? && q.fileUploadConfig.value.acceptedFileTypes.Some?
    then
      Text.JoinEmpty(q.fileUploadConfig.value.acceptedFileTypes.value, ", ");
      Text.Join(q.fileUploadConfig.value.acceptedFileTypes.value, ", ")
    else ""
  }

  /** Showing a list of trimmed, comma-free types and parsing the shown text
      gives the list back. */
  lemma ShowParseRoundTrip(types: seq<string>)
    requires |types| > 0
    requires forall i :: 0 <= i < |types| ==> Text.IsTrimmed(types[i]) && ',' !in types[i]
    ensures ParseAcceptedTypes(Text.Join(types, ", ")) == types
  {
    SplitShown(types);
    ParsePadded(Text.Join(types, ", "), types);
  }

  /** Leaving the accepted-types input as shown, when it shows a non-empty
      list of trimmed, comma-free types, stores the same list again. */
  lemma TypesFieldRoundTrip(q: Question)
    requires q.fileUploadConfig.Some? && q.fileUploadConfig.value.acceptedFileTypes.Some?
    requires var types := q.fileUploadConfig.value.acceptedFileTypes.value;
      |types| > 0 && forall i :: 0 <= i < |types| ==> Text.IsTrimmed(types[i]) && ',' !in types[i]
    ensures HandleFileUploadConfigUpdate(q, AcceptedFileTypes(ParseAcceptedTypes(ShowAcceptedTypes(q)))) == q
  {
    ShowParseRoundTrip(q.fileUploadConfig.value.acceptedFileTypes.value);
  }

  /** Text that splits into the types, all but the first behind one space,
      parses back to the types. */
  lemma ParsePadded(shown: string, types: seq<string>)
    requires |types| > 0
    requires forall i :: 0 <= i < |types| ==> Text.IsTrimmed(types[i])
    requires Text.Split(shown, ',') == [types[0]] + Text.Padded(types[1..])
    ensures ParseAcceptedTypes(shown) == types
  {
    var parsed := ParseAcceptedTypes(shown);
    assert |parsed| == |Text.Split(shown, ',')| == |types|;
    forall i | 0 <= i < |types|
      ensures parsed[i] == types[i]
    {
      TrimPiece(types, i);
    }
  }

  /** The pieces of the shown text are the types, all but the first behind one space. */
  lemma SplitShown(types: seq<string>)
    requires |types| > 0
    requires forall i :: 0 <= i < |types| ==> ',' !in types[i]
    ensures Text.Split(Text.Join(types, ", "), ',') == [types[0]] + Text.Padded(types[1..])
  {
    var spaced := [types[0]] + Text.Padded(types[1..]);
    Text.JoinCommaSpace(types);
    forall i | 0 <= i < |spaced|
      ensures ',' !in spaced[i]
    {
      if i > 0 {
        assert spaced[i] == " " + types[i];
      }
    }
    Text.SplitJoin(spaced, ',');
  }

  lemma TrimPiece(types: seq<string>, i: nat)
    requires i < |types|
    requires Text.IsTrimmed(types[i])
    ensures Text.Trim(([types[0]] + Text.Padded(types[1..]))[i]) == types[i]
  {
    if i == 0 {
      Text.TrimSpaced("", types[0]);
      assert "" + types[0] == types[0];
    } else {
      assert ([types[0]] + Text.Padded(types[1..]))[i] == " " + types[i];
      Text.TrimSpaced(" ", types[i]);
    }
  }

  /** Clearing the accepted-types input stores one empty type, not an empty list. */
  lemma ClearedTypesField()
    ensures ParseAcceptedTypes("") == [""]
  {
  }

  /** Bytes in one megabyte. */
  const BytesPerMb: int := 1024 * 1024

  /** The size input's handler: `parseInt(value) * 1024 * 1024`. */
  function MbToBytes(mb: int): (r: int)
    ensures r % BytesPerMb == 0 && r / BytesPerMb == mb
  {
    mb * 1024 * 1024
  }

  /** The size input's displayed value: `(maxFileSize || 0) / (1024 * 1024)`. */
  function DisplayMb(q: Question): (r: real)
    ensures r * BytesPerMb as real == StoredSize(q) as real
    ensures StoredSize(q) % BytesPerMb == 0 ==> r == (StoredSize(q) / BytesPerMb) as real
  {
    StoredSize(q) as real / BytesPerMb as real
  }

  /** `maxFileSize || 0` */
  function StoredSize(q: Question): int {
    if q.fileUploadConfig.Some? then q.fileUploadConfig.value.maxFileSize.GetOr(0) else 0
  }

  /** Entering a whole number of megabytes stores that many mebibytes in
      bytes, and the field then displays the number entered. */
  lemma MbRoundTrip(q: Question, mb: int)
    ensures var r := HandleFileUploadConfigUpdate(q, MaxFileSize(MbToBytes(mb)));
      && r.fileUploadConfig.value.maxFileSize == Some(mb * BytesPerMb)
      && DisplayMb(r) == mb as real
  {
    var r := HandleFileUploadConfigUpdate(q, MaxFileSize(MbToBytes(mb)));
    assert (mb * BytesPerMb) as real == mb as real * BytesPerMb as real;
  }
}

=== FILE: question_type_popup.dfy ===
/** The "Add New Question" dialog: build the question the chosen type and
    the entered texts describe. */
module QuestionTypePopup {
  import opened Optional
  import opened Types
  import Text
  import QuestionBlock

  /** The three placeholder choices every new question starts with. */
  const DefaultOptions: seq<string> := ["Option 1", "Option 2", "Option 3"]

  /** Upload limits of a new file-upload question: one PDF or image of at most 5 MB. */
  const DefaultUploadConfig: FileUploadConfig :=
    FileUploadConfig(Some(1), Some(["application/pdf", "image/*"]), Some(5 * 1024 * 1024))

  /** `handleAddQuestion`; `id` is the clock reading the question is named after. */
  function NewQuestion(id: string, kind: QuestionType, questionText: string, statementText: string): (q: Question)
    ensures q.id == id && q.kind == kind
    ensures q.question == (if questionText == "" then "New Question" else questionText)
    ensures q.statement.Some? <==> kind == Statement
    ensures kind == Statement ==> q.statement == Some(statementText)
    ensures q.options == Some(["Option 1", "Option 2", "Option 3"])
    ensures q.fileUploadConfig.Some? <==> kind == FileUpload
    ensures kind == FileUpload ==>
      && q.fileUploadConfig.value.maxFiles == Some(1)
      && q.fileUploadConfig.value.acceptedFileTypes == Some(["application/pdf", "image/*"])
      && q.fileUploadConfig.value.maxFileSize == Some(5242880)
    ensures q.image.None?
  {
    Question(
      id,
      kind,
      if questionText == "" then "New Question" else questionText,
      Some(DefaultOptions),
      if kind == Statement then Some(statementText) else None,
      None,
      if kind == FileUpload then Some(DefaultUploadConfig) else None)
  }

  /** A new file-upload question's block shows a 5 MB limit and the two
      default types, and re-entering the shown types stores the same list. */
  lemma NewUploadQuestionAsShown(id: string, questionText: string)
    ensures var q := NewQuestion(id, FileUpload, questionText, "");
      && QuestionBlock.DisplayMb(q) == 5.0
      && QuestionBlock.ShowAcceptedTypes(q) == "application/pdf, image/*"
      && QuestionBlock.ParseAcceptedTypes(QuestionBlock.ShowAcceptedTypes(q)) == ["application/pdf", "image/*"]
  {
    var q := NewQuestion(id, FileUpload, questionText, "");
    DefaultSizeShown(q);
    DefaultTypesShown(q);
  }

  lemma DefaultSizeShown(q: Question)
    requires q.fileUploadConfig == Some(DefaultUploadConfig)
    ensures QuestionBlock.DisplayMb(q) == 5.0
  {
    assert (5 * 1024 * 1024) as real / QuestionBlock.BytesPerMb as real == 5.0;
  }

  lemma DefaultTypesShown(q: Question)
    requires q.fileUploadConfig == Some(DefaultUploadConfig)
    ensures QuestionBlock.ShowAcceptedTypes(q) == "application/pdf, image/*"
    ensures QuestionBlock.ParseAcceptedTypes("application/pdf, image/*") == ["application/pdf", "image/*"]
  {
    var types := ["application/pdf", "image/*"];
    assert QuestionBlock.ShowAcceptedTypes(q) == Text.Join(types, ", ");
    JoinDefaultTypes();
    DefaultTypesClean();
    QuestionBlock.ShowParseRoundTrip(types);
  }

  lemma JoinDefaultTypes()
    ensures Text.Join(["application/pdf", "image/*"], ", ") == "application/pdf, image/*"
  {
  }

  lemma DefaultTypesClean()
    ensures forall i :: 0 <= i < 2 ==>
      Text.IsTrimmed(["application/pdf", "image/*"][i]) && ',' !in ["application/pdf", "image/*"][i]
  {
    assert ',' !in "application/pdf";
    assert ',' !in "image/*";
  }

  /** Every question type that needs choices starts with a non-empty list of them. */
  lemma ChoiceTypesStartWithOptions(id: string, kind: QuestionType, questionText: string, statementText: string)
    requires NeedsOptions(kind)
    ensures NewQuestion(id, kind, questionText, statementText).options.Some?
    ensures |NewQuestion(id, kind, questionText, statementText).options.value| > 0
  {
  }
}

=== FILE: responses_page.dfy ===
/** The responses table: which stored responses are listed, whether the
    partial-submissions switch is offered, and what each answer cell shows. */
module ResponsesPage {
  import opened Optional
  import opened Types
  import Text
  import Sequences
  import FormViewer
  import QuestionBlock

  /** The matcher `response => !response.isPartial`. */
  function IsComplete(): Response -> bool {
    (r: Response) => !r.isPartial
  }

  /** `filteredResponses`: everything with partials shown, otherwise exactly
      the complete responses in their stored order. */
  function FilteredResponses(rs: seq<Response>, showPartial: bool): (r: seq<Response>)
    ensures |r| <= |rs|
    ensures showPartial ==> r == rs
    ensures !showPartial ==> forall x :: x in r <==> x in rs && !x.isPartial
    ensures forall x :: multiset(r)[x] <= multiset(rs)[x]
  {
    if showPartial then rs else Sequences.Keep(rs, IsComplete())
  }

  /** Filtering keeps the stored order: it distributes over concatenation,
      and filtering an already filtered list changes nothing. */
  lemma FilterKeepsOrder(a: seq<Response>, b: seq<Response>, showPartial: bool)
    ensures FilteredResponses(a + b, showPartial) == FilteredResponses(a, showPartial) + FilteredResponses(b, showPartial)
    ensures FilteredResponses(FilteredResponses(a, showPartial), showPartial) == FilteredResponses(a, showPartial)
  {
    Sequences.KeepAppend(a, b, IsComplete());
    Sequences.KeepIdempotent(a, IsComplete());
  }

  /** The switch for partial submissions is shown only to a Pro user on a
      form that captures them. */
  predicate PartialToggleOffered(isPro: bool, f: Form) {
    isPro && f.capturePartialSubmissions == Some(true)
  }

  /** The listed responses: the switch starts off and can only be turned on
      where it is offered. */
  function Listed(isPro: bool, f: Form, rs: seq<Response>, switchedOn: bool): seq<Response> {
    FilteredResponses(rs, PartialToggleOffered(isPro, f) && switchedOn)
  }

  /** Without the switch turned on where it is offered no partial response
      is listed; with it every stored response is listed, in order. */
  lemma PartialsNeedTheSwitch(isPro: bool, f: Form, rs: seq<Response>, switchedOn: bool)
    ensures !(PartialToggleOffered(isPro, f) && switchedOn) ==>
      forall x :: x in Listed(isPro, f, rs, switchedOn) <==> x in rs && !x.isPartial
    ensures PartialToggleOffered(isPro, f) && switchedOn ==> Listed(isPro, f, rs, switchedOn) == rs
  {
  }

  /** "No responses yet" depends on the unfiltered list. */
  predicate ShowsNoResponsesYet(rs: seq<Response>) {
    |rs| == 0
  }

  /** When every stored response is partial and partials are hidden, the
      page shows an empty table rather than "No responses yet". */
  lemma OnlyPartialsShowEmptyTable(rs: seq<Response>)
    requires |rs| > 0 && forall x :: x in rs ==> x.isPartial
    ensures !ShowsNoResponsesYet(rs)
    ensures FilteredResponses(rs, false) == []
  {
  }

  /** What a cell holds: a dash for an unanswered column, otherwise the answer text. */
  datatype Cell = Dash | Shown(text: string)

  /** How a file inside a stored answer is shown. Stored responses are read
      back through JSON, where a file becomes an empty object, and joining
      an array converts that object to this text. */
  const FileShown: string := "[object Object]"

  /** How an answer value is rendered: an array joined with `', '`, a
      string as is, a missing answer as nothing. */
  function Render(a: Option<Answer>): (r: string)
    ensures a.None? ==> r == ""
    ensures a.Some? && a.value.Text? ==> r == a.value.text
    ensures a.Some? && a.value.Choices? ==> r == Text.Join(a.value.items, ", ")
    ensures a.Some? && a.value.Files? && |a.value.files| > 0 ==> Text.IsPrefix(FileShown, r)
    ensures a.Some? && a.value.Mixed? && |a.value.leading| > 0 ==> Text.IsPrefix(FileShown, r)
    ensures a.Some? && a.value.Files? ==> r == Text.Join(FilesShown(|a.value.files|), ", ")
    ensures a.Some? && a.value.Mixed? ==>
      r == Text.Join(FilesShown(|a.value.leading|) + a.value.items, ", ")
  {
    match a
    case None => ""
    case Some(Text(s)) => s
    case Some(Choices(xs)) => Text.Join(xs, ", ")
    case Some(Files(fs)) =>
      assert FilesShown(|fs|) + [] == FilesShown(|fs|);
      JoinedFiles(fs, [])
    case Some(Mixed(fs, xs)) => JoinedFiles(fs, xs)
  }

  /** Files followed by strings, joined with `', '`; with at least one
      file the text starts with how a file is shown, whatever its name. */
  function JoinedFiles(fs: seq<FileRef>, xs: seq<string>): (r: string)
    ensures |fs| > 0 ==> Text.IsPrefix(FileShown, r)
  {
    var shown := FilesShown(|fs|) + xs;
    assert |fs| > 0 ==> shown[0] == FileShown;
    Text.Join(shown, ", ")
  }

  /** One "[object Object]" per file. */
  function FilesShown(n: nat): (r: seq<string>)
    ensures |r| == n && forall i :: 0 <= i < n ==> r[i] == FileShown
  {
    seq(n, _ => FileShown)
  }

  /** A cell showing a non-empty list of trimmed options free of commas
      splits back, at the commas, into exactly that list. */
  lemma ChoiceCellSplitsBack(xs: seq<string>)
    requires |xs| > 0
    requires forall i :: 0 <= i < |xs| ==> Text.IsTrimmed(xs[i]) && ',' !in xs[i]
    ensures QuestionBlock.ParseAcceptedTypes(Render(Some(Choices(xs)))) == xs
  {
    QuestionBlock.ShowParseRoundTrip(xs);
  }

  /** The cell for the question in column `index` of a response's row. */
  function CellFor(r: Response, q: Question, index: int): (c: Cell)
    ensures c.Dash? <==> index > r.lastQuestionAnswered
    ensures c.Shown? ==> c.text == Render(if q.id in r.answers then Some(r.answers[q.id]) else None)
  {
    if index <= r.lastQuestionAnswered
    then Shown(Render(if q.id in r.answers then Some(r.answers[q.id]) else None))
    else Dash
  }

  /** A submitted response's row shows every column of the form. */
  lemma CompleteRowShowsEveryColumn(p: FormViewer.Props, answers: Answers, stamp: FormViewer.Stamp, index: nat)
    requires index < |p.form.questions|
    ensures CellFor(FormViewer.CompleteRecord(p, answers, stamp), p.form.questions[index], index).Shown?
  {
  }

  /** The partial snapshot of a first answer claims question 0 answered yet
      its cell shows nothing. */
  lemma FirstSnapshotShowsBlank(p: FormViewer.Props, stamp: FormViewer.Stamp)
    requires |p.form.questions| > 0
    ensures CellFor(FormViewer.PartialSnapshot(p, FormViewer.Start, stamp), p.form.questions[0], 0) == Shown("")
  {
  }
}

=== FILE: sequences.dfy ===
/** List operations shared by the forms list, the question list and the
    integrations list: replace-where (`Array.map` with a conditional),
    keep-where (`Array.filter`), and the splice-out/splice-in move used by
    drag reordering. */
module Sequences {

  /** `xs.map(x => matches(x) ? y : x)` */
  function Replace<T>(xs: seq<T>, matches: T -> bool, y: T): (r: seq<T>)
    ensures |r| == |xs|
    ensures forall i :: 0 <= i < |xs| && matches(xs[i]) ==> r[i] == y
    ensures forall i :: 0 <= i < |xs| && !matches(xs[i]) ==> r[i] == xs[i]
  {
    if |xs| == 0 then []
    else [if matches(xs[0]) then y else xs[0]] + Replace(xs[1..], matches, y)
  }

  /** `xs.filter(keep)` */
  function Keep<T(!new)>(xs: seq<T>, keep: T -> bool): (r: seq<T>)
    ensures |r| <= |xs|
    ensures forall x :: x in r <==> x in xs && keep(x)
    ensures forall x :: multiset(r)[x] == if keep(x) then multiset(xs)[x] else 0
  {
    if |xs| == 0 then []
    else
      assert xs == [xs[0]] + xs[1..];
      (if keep(xs[0]) then [xs[0]] else []) + Keep(xs[1..], keep)
  }

  /** Filtering distributes over concatenation: together with the
      membership and multiplicity clauses of `Keep`, this pins the result
      down as the kept elements in their original relative order. */
  lemma {:induction false} KeepAppend<T(!new)>(a: seq<T>, b: seq<T>, keep: T -> bool)
    ensures Keep(a + b, keep) == Keep(a, keep) + Keep(b, keep)
  {
    if |a| == 0 {
      assert a + b == b;
    } else {
      assert (a + b)[1..] == a[1..] + b;
      KeepAppend(a[1..], b, keep);
    }
  }

  /** A filter that keeps everything is the identity. */
  lemma {:induction false} KeepAll<T(!new)>(xs: seq<T>, keep: T -> bool)
    requires forall x :: x in xs ==> keep(x)
    ensures Keep(xs, keep) == xs
  {
    if |xs| > 0 {
      KeepAll(xs[1..], keep);
    }
  }

  /** Filtering twice by the same predicate is filtering once. */
  lemma {:induction false} KeepIdempotent<T(!new)>(xs: seq<T>, keep: T -> bool)
    ensures Keep(Keep(xs, keep), keep) == Keep(xs, keep)
  {
    KeepAll(Keep(xs, keep), keep);
  }

  /** `xs.splice(i, 1)`: the element at `i` taken out. */
  function RemoveAt<T>(xs: seq<T>, i: nat): (r: seq<T>)
    requires i < |xs|
    ensures |r| == |xs| - 1
    ensures multiset(r) + multiset{xs[i]} == multiset(xs)
    ensures forall k :: 0 <= k < i ==> r[k] == xs[k]
    ensures forall k :: i <= k < |r| ==> r[k] == xs[k + 1]
  {
    assert xs == xs[..i] + [xs[i]] + xs[i + 1..];
    xs[..i] + xs[i + 1..]
  }

  /** `xs.splice(j, 0, x)`: `x` put in front of the element at `j`. */
  function InsertAt<T>(xs: seq<T>, j: nat, x: T): (r: seq<T>)
    requires j <= |xs|
    ensures |r| == |xs| + 1
    ensures r[j] == x
    ensures multiset(r) == multiset(xs) + multiset{x}
    ensures forall k :: 0 <= k < j ==> r[k] == xs[k]
    ensures forall k :: j < k < |r| ==> r[k] == xs[k - 1]
  {
    assert xs == xs[..j] + xs[j..];
    xs[..j] + [x] + xs[j..]
  }

  /** The list move of a drag-and-drop reorder: take the element at `from`
      out, then insert it so that it ends up at index `to`. */
  function Move<T>(xs: seq<T>, from: nat, to: nat): (r: seq<T>)
    requires from < |xs| && to < |xs|
    ensures |r| == |xs|
    ensures multiset(r) == multiset(xs)
    ensures r[to] == xs[from]
  {
    InsertAt(RemoveAt(xs, from), to, xs[from])
  }

  /** Inserting at `j` and then removing at `j` gives the list back. */
  lemma RemoveInserted<T>(xs: seq<T>, j: nat, x: T)
    requires j <= |xs|
    ensures RemoveAt(InsertAt(xs, j, x), j) == xs
  {
  }

  /** Removing at `i` and putting the same element back at `i` gives the list back. */
  lemma InsertRemoved<T>(xs: seq<T>, i: nat)
    requires i < |xs|
    ensures InsertAt(RemoveAt(xs, i), i, xs[i]) == xs
  {
  }

  /** Apart from the moved element, a move keeps every element in its
      original relative order. */
  lemma MoveKeepsOthersInOrder<T>(xs: seq<T>, from: nat, to: nat)
    requires from < |xs| && to < |xs|
    ensures RemoveAt(Move(xs, from, to), to) == RemoveAt(xs, from)
  {
    RemoveInserted(RemoveAt(xs, from), to, xs[from]);
  }

  /** Moving from `i` to `j` and then from `j` back to `i` restores the list. */
  lemma MoveInverse<T>(xs: seq<T>, from: nat, to: nat)
    requires from < |xs| && to < |xs|
    ensures Move(Move(xs, from, to), to, from) == xs
  {
    var ys := Move(xs, from, to);
    MoveKeepsOthersInOrder(xs, from, to);
    InsertRemoved(xs, from);
  }
}

=== FILE: storage.dfy ===
/** Browser local storage as a map from keys to stored values. Values are
    kept as typed records rather than serialised JSON strings. */
module Storage {
  import opened Types

  /** What a key holds: the forms list, one form's responses, one form's
      saved integration URLs, or a plain flag. */
  datatype Stored =
    | FormList(forms: seq<Form>)
    | ResponseList(responses: seq<Response>)
    | Settings(entries: map<string, string>)
    | Flag(value: string)

  type Store = map<string, Stored>

  const FormsKey: string := "forms"

  /** `responses_${formId}` */
  function ResponsesKey(formId: string): string {
    "responses_" + formId
  }

  /** `integrations_${formId}` */
  function IntegrationsKey(formId: string): string {
    "integrations_" + formId
  }

  /** The key scheme never lets two kinds of record, or the records of two
      different forms, share a key. */
  lemma KeysDistinct(a: string, b: string)
    ensures ResponsesKey(a) != IntegrationsKey(b)
    ensures ResponsesKey(a) != FormsKey && IntegrationsKey(a) != FormsKey
    ensures ResponsesKey(a) == ResponsesKey(b) ==> a == b
    ensures IntegrationsKey(a) == IntegrationsKey(b) ==> a == b
  {
    assert ResponsesKey(a)[0] == 'r' && IntegrationsKey(b)[0] == 'i' && FormsKey[0] == 'f';
    if ResponsesKey(a) == ResponsesKey(b) {
      assert a == ResponsesKey(a)[10..] == ResponsesKey(b)[10..] == b;
    }
    if IntegrationsKey(a) == IntegrationsKey(b) {
      assert a == IntegrationsKey(a)[13..] == IntegrationsKey(b)[13..] == b;
    }
  }

  /** `JSON.parse(localStorage.getItem(`responses_${formId}`) || '[]')` */
  function LoadResponses(st: Store, formId: string): (r: seq<Response>)
    ensures ResponsesKey(formId) !in st ==> r == []
  {
    var key := ResponsesKey(formId);
    if key in st && st[key].ResponseList? then st[key].responses else []
  }

  /** `JSON.parse(localStorage.getItem(`integrations_${formId}`) || '{}')` */
  function LoadSettings(st: Store, formId: string): (r: map<string, string>)
    ensures IntegrationsKey(formId) !in st ==> r == map[]
  {
    var key := IntegrationsKey(formId);
    if key in st && st[key].Settings? then st[key].entries else map[]
  }

  /** Read the list, push one record, write the list back. */
  function AppendResponse(st: Store, formId: string, record: Response): (st': Store)
    ensures LoadResponses(st', formId) == LoadResponses(st, formId) + [record]
    ensures st'.Keys == st.Keys + {ResponsesKey(formId)}
    ensures forall k :: k in st && k != ResponsesKey(formId) ==> st'[k] == st[k]
  {
    st[ResponsesKey(formId) := ResponseList(LoadResponses(st, formId) + [record])]
  }

  /** Two appends in a row add both records, in order. */
  lemma AppendTwice(st: Store, formId: string, first: Response, second: Response)
    ensures LoadResponses(AppendResponse(AppendResponse(st, formId, first), formId, second), formId)
      == LoadResponses(st, formId) + [first, second]
  {
  }
}

=== FILE: text.dfy ===
/** String helpers with JavaScript semantics: `split` on one character,
    `join` with a separator, `trim`, and `includes` on strings. */
module Text {

  /** The whitespace `String.prototype.trim` strips: tab, line feed,
      vertical tab, form feed, carriage return, space, no-break space and
      the byte-order mark. */
  predicate IsSpace(c: char) {
    c == ' ' || ('\t' <= c <= '\r') || c == '\U{00A0}' || c == '\U{FEFF}'
  }

  /** Number of occurrences of `c` in `s`. */
  function CountChar(s: string, c: char): nat {
    if |s| == 0 then 0 else (if s[0] == c then 1 else 0) + CountChar(s[1..], c)
  }

  /** `s.split(c)` for a one-character separator. */
  function Split(s: string, c: char): (r: seq<string>)
    ensures |r| == CountChar(s, c) + 1
    ensures forall i :: 0 <= i < |r| ==> c !in r[i]
  {
    if |s| == 0 then [""]
    else
      var rest := Split(s[1..], c);
      if s[0] == c then [""] + rest
      else [[s[0]] + rest[0]] + rest[1..]
  }

  /** `xs.join(sep)` */
  function Join(xs: seq<string>, sep: string): string {
    if |xs| == 0 then ""
    else if |xs| == 1 then xs[0]
    else xs[0] + sep + Join(xs[1..], sep)
  }

  /** With a non-empty separator, a join is empty only for no pieces or one empty piece. */
  lemma JoinEmpty(xs: seq<string>, sep: string)
    requires sep != ""
    ensures Join(xs, sep) == "" <==> xs == [] || xs == [""]
  {
    if |xs| == 1 {
      assert xs == [xs[0]];
    }
  }

  /** Joining a list with at least one more element after the head. */
  lemma JoinCons(x: string, xs: seq<string>, sep: string)
    requires |xs| > 0
    ensures Join([x] + xs, sep) == x + sep + Join(xs, sep)
  {
    assert ([x] + xs)[1..] == xs;
  }

  /** Joining the pieces of a split with the separator gives the string back. */
  lemma {:induction false} JoinSplit(s: string, c: char)
    ensures Join(Split(s, c), [c]) == s
  {
    if |s| > 0 {
      var rest := Split(s[1..], c);
      JoinSplit(s[1..], c);
      if s[0] == c {
        JoinCons("", rest, [c]);
      } else if |rest| == 1 {
        assert Join(Split(s, c), [c]) == [s[0]] + rest[0];
      } else {
        JoinCons(rest[0], rest[1..], [c]);
        assert [rest[0]] + rest[1..] == rest;
        JoinCons([s[0]] + rest[0], rest[1..], [c]);
      }
    }
  }

  /** Splitting a separator-free prefix followed by the separator peels off that prefix. */
  lemma {:induction false} SplitPrefix(x: string, c: char, rest: string)
    requires c !in x
    ensures Split(x + [c] + rest, c) == [x] + Split(rest, c)
  {
    if |x| == 0 {
      assert x + [c] + rest == [c] + rest;
      assert ([c] + rest)[1..] == rest;
    } else {
      assert (x + [c] + rest)[1..] == x[1..] + [c] + rest;
      SplitPrefix(x[1..], c, rest);
      assert [x[0]] + x[1..] == x;
    }
  }

  /** A string without the separator splits into itself alone. */
  lemma {:induction false} SplitNoSeparator(x: string, c: char)
    requires c !in x
    ensures Split(x, c) == [x]
  {
    if |x| > 0 {
      SplitNoSeparator(x[1..], c);
      assert [x[0]] + x[1..] == x;
    }
  }

  /** Splitting a join of separator-free pieces gives the pieces back. */
  lemma {:induction false} SplitJoin(xs: seq<string>, c: char)
    requires |xs| > 0
    requires forall i :: 0 <= i < |xs| ==> c !in xs[i]
    ensures Split(Join(xs, [c]), c) == xs
  {
    if |xs| == 1 {
      SplitNoSeparator(xs[0], c);
    } else {
      SplitJoin(xs[1..], c);
      SplitPrefix(xs[0], c, Join(xs[1..], [c]));
      assert [xs[0]] + xs[1..] == xs;
    }
  }

  /** How many whitespace characters `s.trim()` cuts off the front of `s`. */
  function TrimLead(s: string): (n: nat)
    ensures n <= |s|
    ensures forall i :: 0 <= i < n ==> IsSpace(s[i])
    ensures n < |s| ==> !IsSpace(s[n])
  {
    if |s| > 0 && IsSpace(s[0]) then 1 + TrimLead(s[1..]) else 0
  }

  /** How many whitespace characters `s.trim()` cuts off the back of `s`. */
  function TrimTrail(s: string): (n: nat)
    ensures n <= |s|
    ensures forall i :: |s| - n <= i < |s| ==> IsSpace(s[i])
    ensures n < |s| ==> !IsSpace(s[|s| - n - 1])
  {
    if |s| > 0 && IsSpace(s[|s| - 1]) then 1 + TrimTrail(s[..|s| - 1]) else 0
  }

  /** `s.trim()`: the slice of `s` left once the leading and trailing
      whitespace are cut off. */
  function Trim(s: string): (r: string)
    ensures IsTrimmed(r)
    ensures TrimLead(s) + |r| <= |s|
    ensures r == s[TrimLead(s)..TrimLead(s) + |r|]
    ensures forall i :: 0 <= i < TrimLead(s) ==> IsSpace(s[i])
    ensures forall i :: TrimLead(s) + |r| <= i < |s| ==> IsSpace(s[i])
  {
    var lead := TrimLead(s);
    var t := s[lead..];
    var trail := TrimTrail(t);
    assert forall i :: lead + |t| - trail <= i < |s| ==> s[i] == t[i - lead];
    t[..|t| - trail]
  }

  /** A string with no whitespace at either end. */
  predicate IsTrimmed(s: string) {
    |s| == 0 || (!IsSpace(s[0]) && !IsSpace(s[|s| - 1]))
  }

  /** Trimming leaves an already trimmed string alone, even behind leading spaces. */
  lemma {:induction false} TrimSpaced(pad: string, s: string)
    requires forall i :: 0 <= i < |pad| ==> IsSpace(pad[i])
    requires IsTrimmed(s)
    ensures Trim(pad + s) == s
  {
    if |pad| > 0 {
      assert (pad + s)[1..] == pad[1..] + s;
      TrimSpaced(pad[1..], s);
    } else {
      assert pad + s == s;
    }
  }

  /** `s.startsWith(p)` */
  predicate IsPrefix(p: string, s: string) {
    |p| <= |s| && s[..|p|] == p
  }

  /** `s.includes(sub)`: `sub` occurs somewhere in `s` (the empty string occurs in every string). */
  predicate Contains(s: string, sub: string)
    decreases |s|
  {
    IsPrefix(sub, s) || (|s| > 0 && Contains(s[1..], sub))
  }

  /** The characters of `s`, each as a one-character string: `[...s]`. */
  function Chars(s: string): (r: seq<string>)
    ensures |r| == |s|
    ensures forall i :: 0 <= i < |s| ==> r[i] == [s[i]]
  {
    seq(|s|, i requires 0 <= i < |s| => [s[i]])
  }

  /** Each string with one space put in front: the pieces after the first
      that splitting a `", "`-joined list on `','` yields. */
  function Padded(xs: seq<string>): (r: seq<string>)
    ensures |r| == |xs|
    ensures forall i :: 0 <= i < |xs| ==> r[i] == " " + xs[i]
  {
    seq(|xs|, i requires 0 <= i < |xs| => " " + xs[i])
  }

  lemma {:induction false} JoinPadded(ys: seq<string>)
    requires |ys| > 0
    ensures " " + Join(ys, ", ") == Join(Padded(ys), ",")
  {
    if |ys| > 1 {
      JoinPadded(ys[1..]);
      assert Padded(ys) == [" " + ys[0]] + Padded(ys[1..]);
      JoinCons(" " + ys[0], Padded(ys[1..]), ",");
    }
  }

  /** Joining with `", "` is joining the padded list with `","`. */
  lemma JoinCommaSpace(xs: seq<string>)
    requires |xs| > 0
    ensures Join(xs, ", ") == Join([xs[0]] + Padded(xs[1..]), ",")
  {
    if |xs| > 1 {
      JoinCommaSpaceLong(xs);
    } else {
      assert [xs[0]] + Padded(xs[1..]) == [xs[0]];
    }
  }

  lemma JoinCommaSpaceLong(xs: seq<string>)
    requires |xs| > 1
    ensures Join(xs, ", ") == Join([xs[0]] + Padded(xs[1..]), ",")
  {
    var tail := Join(xs[1..], ", ");
    JoinPadded(xs[1..]);
    JoinCons(xs[0], Padded(xs[1..]), ",");
    assert Join(xs, ", ") == xs[0] + ", " + tail;
    CommaSpace(xs[0], tail);
  }

  lemma CommaSpace(a: string, b: string)
    ensures a + ", " + b == a + "," + (" " + b)
  {
    assert ", " == "," + " ";
  }
}

=== FILE: types.dfy ===
/** The data model of the form builder: questions, forms, answers and
    stored responses, with the optional TypeScript fields as `Option`. */
module Types {
  import opened Optional

  /** The twelve kinds of question block. */
  datatype QuestionType =
    | ShortText | LongText | Number | MultipleChoice | Checkbox | Date
    | Email | Signature | Statement | Url | SingleSelect | FileUpload

  /** Every question type, in the order the type is declared. */
  const AllTypes: seq<QuestionType> :=
    [ShortText, LongText, Number, MultipleChoice, Checkbox, Date,
     Email, Signature, Statement, Url, SingleSelect, FileUpload]

  /** The string tag a question type is stored and selected under. */
  function Tag(t: QuestionType): string {
    match t
    case ShortText => "text"
    case LongText => "longText"
    case Number => "number"
    case MultipleChoice => "multipleChoice"
    case Checkbox => "checkbox"
    case Date => "date"
    case Email => "email"
    case Signature => "signature"
    case Statement => "statement"
    case Url => "url"
    case SingleSelect => "singleSelect"
    case FileUpload => "fileUpload"
  }

  /** The question type a tag names, if any (a `<select>` value read back). */
  function ParseTag(s: string): (r: Option<QuestionType>)
    ensures r.Some? ==> Tag(r.value) == s
  {
    if s == "text" then Some(ShortText)
    else if s == "longText" then Some(LongText)
    else if s == "number" then Some(Number)
    else if s == "multipleChoice" then Some(MultipleChoice)
    else if s == "checkbox" then Some(Checkbox)
    else if s == "date" then Some(Date)
    else if s == "email" then Some(Email)
    else if s == "signature" then Some(Signature)
    else if s == "statement" then Some(Statement)
    else if s == "url" then Some(Url)
    else if s == "singleSelect" then Some(SingleSelect)
    else if s == "fileUpload" then Some(FileUpload)
    else None
  }

  /** A question type is exactly one of twelve distinct tags, and reading a
      tag back gives the type it was written from. */
  lemma TwelveTags(t: QuestionType, u: QuestionType)
    ensures |AllTypes| == 12
    ensures forall i, j :: 0 <= i < j < |AllTypes| ==> AllTypes[i] != AllTypes[j]
    ensures t in AllTypes
    ensures ParseTag(Tag(t)) == Some(t)
    ensures Tag(t) == Tag(u) ==> t == u
  {
    ParseTagOfTag(t);
    ParseTagOfTag(u);
  }

  lemma ParseTagOfTag(t: QuestionType)
    ensures ParseTag(Tag(t)) == Some(t)
  {
    match t
    case ShortText =>
    case LongText =>
    case Number =>
    case MultipleChoice =>
    case Checkbox =>
    case Date =>
    case Email =>
    case Signature =>
    case Statement =>
    case Url =>
    case SingleSelect =>
    case FileUpload =>
  }

  /** The types whose block edits and shows a list of choices. */
  predicate NeedsOptions(t: QuestionType) {
    t == MultipleChoice || t == Checkbox || t == SingleSelect
  }

  datatype Placement = Stack | Split | Wallpaper

  datatype Side = Left | Right

  /** A cover image. The declared type makes `url` and `placement` required,
      but merging one field into an absent image creates a record holding
      only that field, so every field is optional here. */
  datatype Image = Image(url: Option<string>, placement: Option<Placement>, position: Option<Side>)

  const NoImage := Image(None, None, None)

  /** Upload limits; `maxFileSize` is in bytes. */
  datatype FileUploadConfig = FileUploadConfig(
    maxFiles: Option<int>,
    acceptedFileTypes: Option<seq<string>>,
    maxFileSize: Option<int>)

  const NoConfig := FileUploadConfig(None, None, None)

  datatype Question = Question(
    id: string,
    kind: QuestionType,
    question: string,
    options: Option<seq<string>>,
    statement: Option<string>,
    image: Option<Image>,
    fileUploadConfig: Option<FileUploadConfig>)

  datatype Align = AlignLeft | AlignCenter | AlignRight

  datatype Form = Form(
    id: string,
    title: string,
    description: Option<string>,
    questions: seq<Question>,
    responseCount: int,
    buttonText: Option<string>,
    textAlign: Option<Align>,
    submitButtonColor: Option<string>,
    titleColor: Option<string>,
    questionColor: Option<string>,
    descriptionColor: Option<string>,
    redirectUrl: Option<string>,
    capturePartialSubmissions: Option<bool>)

  /** A browser `File` picked by a respondent, kept opaque. */
  datatype FileRef = FileRef(name: string)

  /** An answer value: a string, a list of strings, or a list of files.
      `Mixed` is a non-empty list of files followed by strings, which is
      what ticking a choice appends to a file answer. */
  datatype Answer =
    | Text(text: string)
    | Choices(items: seq<string>)
    | Files(files: seq<FileRef>)
    | Mixed(leading: seq<FileRef>, items: seq<string>)

  /** Answers keyed by question id. */
  type Answers = map<string, Answer>

  datatype Response = Response(
    id: string,
    formId: string,
    answers: Answers,
    submittedAt: string,
    isPartial: bool,
    lastQuestionAnswered: int)

  datatype User = User(id: string, name: string, email: string, isPro: bool)

  /** JavaScript truthiness of an optional string: present and non-empty. */
  predicate Truthy(s: Option<string>) {
    s.Some? && s.value != ""
  }

  /** `s || fallback` for an optional string. */
  function OrElse(s: Option<string>, fallback: string): (r: string)
    ensures Truthy(s) ==> r == s.value
    ensures !Truthy(s) ==> r == fallback
  {
    if Truthy(s) then s.value else fallback
  }
}
